=== FILE: README.md ===
# HyperJots note ledger — a Dafny model

HyperJots keeps private notes on a Hyperledger Fabric channel. It has three parts:

- **The chaincode.** It stores each note under the decimal text of its ID and hands out IDs from a `note_counter` entry. It lets only a note's owner read, update or delete it. It lists a caller's notes by a full range scan.
- **The Express REST layer.** It checks each request, picks the connection of organization `org1` or `org2`, runs one transaction and maps the outcome to an HTTP status and JSON body. Its note list is re-sorted by numeric ID.
- **The React context.** It holds the browser's note list and updates it optimistically. A create appends the note under a temporary `Date.now()` ID and then settles or reverts it. An update edits in place and restores a snapshot if the request fails.

How the model is built:

- The world state is a `map<string, Entry>`.
- A transaction is a pure function returning the state it leaves behind and its result. A failed transaction leaves the state unchanged, because Fabric commits only successful transactions.
- Go's 64-bit `int` is written out explicitly, including the wrap-around of `counter++`.
- The Fabric range query visits keys in ascending byte order. This is modelled as lexicographic order on `string`, which is why note "10" is listed before note "2".
- The caller's client identity, the server's replies and `Date.now()` are parameters.

Modules:

| file | module | what it holds |
|---|---|---|
| results.dfy | `Results` | `Option` and `Result` |
| decimal.dfy | `Decimal` | `fmt.Sprintf("%d")` and its `strconv.Atoi` reading |
| lex_order.dfy | `LexOrder` | the ledger's key order and the sorted key list of a range scan |
| chaincode.dfy | `Chaincode` | notes, entries, errors and every contract function |
| ledger.dfy | `Ledger` | the transaction dispatcher, its invariants, and runs of transactions |
| note_order.dfy | `NoteOrder` | the REST layer's sort by note ID |
| backend.dfy | `Backend` | the five `/api` handlers |
| backend_facts.dfy | `BackendFacts` | end-to-end properties of handlers and contract together |
| js_text.dfy | `JsText` | JavaScript `trim` and blank strings |
| frontend.dfy | `Frontend` | `fetchNotes`, `createNote`, `updateNote` |
| frontend_facts.dfy | `FrontendFacts` | what a refresh shows once the list route has answered |

## Model

| member | source | states |
|---|---|---|
| Decimal.NatDigits | chaincode/go/hyperjots_chaincode.go:52 | The decimal text of a natural number is a nonempty digit string with no leading zero. |
| Decimal.FormatRoundTrip | chaincode/go/hyperjots_chaincode.go:52 | Parsing the `%d` text of any integer gives back that integer. A note's key therefore reads back as its ID. |
| Decimal.FormatInjective | chaincode/go/hyperjots_chaincode.go:181 | Two IDs have the same key text exactly when they are equal. |
| Decimal.ParseLeadingStops | hyperjots-backend/src/server.js:189 | `parseInt` of a number's digits followed by anything that does not start with a digit reads that number: it stops at the first non-digit. |
| Decimal.ParseLeadingFormat | hyperjots-backend/src/server.js:189 | `parseInt` of the decimal text of any integer, sign included, gives back that integer. |
| LexOrder.Total | chaincode/go/hyperjots_chaincode.go:105 | Any two distinct keys are ordered one way or the other by the range-query order. |
| LexOrder.Transitive | chaincode/go/hyperjots_chaincode.go:105 | The range-query order is transitive. |
| LexOrder.LeastExists | chaincode/go/hyperjots_chaincode.go:105 | Every nonempty set of keys has a least key. |
| LexOrder.SortedKeys | chaincode/go/hyperjots_chaincode.go:105-113 | A full range scan visits exactly the stored keys, each once, in strictly ascending key order. |
| LexOrder.SortedUnique | chaincode/go/hyperjots_chaincode.go:105 | Two strictly ascending key lists with the same members are equal, so the scan order is fully determined. |
| Chaincode.KeyIsNotCounter | chaincode/go/hyperjots_chaincode.go:119 | No note key can equal `note_counter`, so skipping that key never skips a note. |
| Chaincode.KeyInjective | chaincode/go/hyperjots_chaincode.go:52 | Distinct note IDs are stored under distinct keys. |
| Chaincode.GetNoteCounter | chaincode/go/hyperjots_chaincode.go:159-177 | The counter is 0 when absent. An entry that does not read as a 64-bit integer is an unmarshal error. Any other value is returned as stored. |
| Chaincode.NextNoteId | chaincode/go/hyperjots_chaincode.go:217-250 | It fails exactly when the counter cannot be read. With no counter the ID is 1; otherwise it is the counter plus one, with 64-bit wrap-around. The new ID is written back as the counter. |
| Chaincode.GetNoteIfAuthorized | chaincode/go/hyperjots_chaincode.go:180-205 | Returns "does not exist" iff the key is absent, an unmarshal error iff the entry is not a note, "access denied" iff the note has another owner, and the stored note iff the caller owns it. |
| Chaincode.CreateNote | chaincode/go/hyperjots_chaincode.go:24-59 | It fails (wrapped "failed to generate new note ID") exactly when the counter is unreadable, and then changes nothing. Otherwise it returns the next ID, stores the caller's note under that ID's key, and the owner reads it back. Only that key and the counter change. |
| Chaincode.UpdateNote | chaincode/go/hyperjots_chaincode.go:67-84 | It succeeds exactly when the caller may read the note. It then replaces the title and content, keeps the ID and owner, and touches no other key. On failure it returns the authorization error and changes nothing. |
| Chaincode.DeleteNote | chaincode/go/hyperjots_chaincode.go:87-95 | It succeeds exactly when the caller may read the note. It then removes that key and nothing else. On failure it changes nothing. |
| Chaincode.ResetNoteCounter | chaincode/go/hyperjots_chaincode.go:140-156 | It always succeeds. The counter reads 0 afterwards and every other key is untouched. |
| Chaincode.Collect | chaincode/go/hyperjots_chaincode.go:111-134 | Skipping the counter, the scan succeeds iff every visited entry reads as a note. It returns exactly the caller's notes among the visited keys, in visiting order. |
| Chaincode.GetAllNotes | chaincode/go/hyperjots_chaincode.go:98-137 | In a readable state the listing succeeds. It holds exactly the stored notes the caller owns, in strictly ascending key-text order. |
| Ledger.Execute | chaincode/go/hyperjots_chaincode.go:24-177 | A failed transaction leaves the world state as it was. The three queries never change it. Only a create returns a new ID. |
| Ledger.ExecutePreservesWf | chaincode/go/hyperjots_chaincode.go:24-156 | Every transaction keeps the state readable: each note key holds a note with that ID, and the counter is a 64-bit integer. |
| Ledger.WfFailuresAreAuthorization | chaincode/go/hyperjots_chaincode.go:180-205 | In a readable state a transaction can fail only with "does not exist" or "access denied". Create, list, reset and counter reads always succeed. |
| Ledger.WfNoteDecodes | chaincode/go/hyperjots_chaincode.go:181-193 | In a readable state the note found under an ID's key unmarshals and carries that ID. |
| Ledger.ReadAfterDelete | chaincode/go/hyperjots_chaincode.go:185-187 | After the owner deletes a note, reading that ID fails with "does not exist" for every caller. |
| Ledger.ReadAfterUpdate | chaincode/go/hyperjots_chaincode.go:67-84 | After the owner updates a note, reading it returns the new title and content under the same ID and owner. |
| Ledger.OthersUnaffected | chaincode/go/hyperjots_chaincode.go:83-94 | An update or delete of one ID does not change what anybody reads under another ID. |
| Ledger.CreateIsFresh | chaincode/go/hyperjots_chaincode.go:24-58 | In a state whose notes all have IDs between 1 and the counter, below the wrap-around point, a create returns the counter plus one. That key is unoccupied, the ID exceeds every stored ID, and the property is kept. |
| Ledger.StepKeepsDominated | chaincode/go/hyperjots_chaincode.go:217-249 | A step other than a reset keeps that property. The counter advances by one on a create and stays put otherwise. |
| Ledger.ResetThenCreateOverwrites | chaincode/go/hyperjots_chaincode.go:140-156 | After a counter reset the next create gets ID 1 and overwrites key "1", even when another user owns the note stored there. |
| Ledger.RunKeepsDominated | chaincode/go/hyperjots_chaincode.go:217-249 | A run with no reset, below the wrap-around point, keeps the freshness property. The counter grows by at most one per step. |
| Ledger.RunAllocatesIncreasingIds | chaincode/go/hyperjots_chaincode.go:217-249 | Such a run hands out strictly increasing IDs, all above the starting counter and at most the final one. |
| Ledger.RunNeverOverwrites | chaincode/go/hyperjots_chaincode.go:52 | No ID handed out by such a run names a note that existed when the run began. |
| NoteOrder.InsertKeeps | hyperjots-backend/src/server.js:299 | One insertion step adds exactly the inserted note and keeps every lower bound on IDs. |
| NoteOrder.InsertSorted | hyperjots-backend/src/server.js:299 | Inserting into an ID-sorted list keeps it sorted. |
| NoteOrder.SortIsSortedPermutation | hyperjots-backend/src/server.js:299 | The sort returns the same notes (as a multiset) in ascending ID order. |
| NoteOrder.SortStrictWhenDistinct | hyperjots-backend/src/server.js:299 | When the IDs are pairwise distinct, the sorted IDs are strictly ascending. |
| NoteOrder.StrictOrderUnique | hyperjots-backend/src/server.js:299 | Two strictly ID-ordered lists with the same members are equal. |
| NoteOrder.SortIsTheStrictOrder | hyperjots-backend/src/server.js:299 | With distinct IDs, the sort result is the only strictly ordered rearrangement of its input. |
| Backend.GetContract | hyperjots-backend/src/server.js:146-148 | A connection exists exactly for `org1` and `org2`, each acting as its own user. Anything else, including a missing org, fails with "Invalid organization". |
| Backend.NoteIdArg | chaincode/go/hyperjots_chaincode.go:62 | A route's `:id` is accepted exactly when it reads as a signed decimal integer in the 64-bit range, as that integer; anything else is a bad argument. Every key-formatted 64-bit ID is accepted as itself. |
| Backend.PostCreateNote | hyperjots-backend/src/server.js:170-200 | The corrected route (see Findings). 400 iff title or content is missing or empty. Past that guard, an unknown organization is a 500 "Invalid organization". For a known one, the answer is 201 iff the contract's create succeeds, and otherwise a 500 whose body names the contract's error as its cause. Every non-201 leaves the ledger unchanged. A 201 carries the new ID, the ledger is the one the create left, and the creator reads the stored note back. |
| Backend.ByteCodeNoteId | hyperjots-backend/src/server.js:189 | As written, `parseInt` of the reply's comma-joined byte codes yields the code of the key's first character, not the ID. |
| Backend.PostCreateNoteAsWritten | hyperjots-backend/src/server.js:170-200 | The route as written: the same status and ledger effect as the corrected route, but a 201 body whose `noteID` is the first key character's code. |
| Backend.GetReadNote | hyperjots-backend/src/server.js:203-231 | 400 iff org is missing or empty. 200 iff the organization is known, the ID parses and the caller owns the note; the body is that note. Otherwise the 500 names its cause: the unknown organization, the unreadable `:id`, or the contract's read error. |
| Backend.PutUpdateNote | hyperjots-backend/src/server.js:234-257 | 400 iff title or content is missing or empty. Past that guard: an unknown organization and an unreadable `:id` are 500s carrying those failures. Otherwise the answer is 200 iff the contract's update succeeds, with the ledger the update left, and else a 500 naming the contract's error as its cause, with the ledger unchanged. |
| Backend.DeleteNoteRoute | hyperjots-backend/src/server.js:260-273 | There is no request guard: an unknown or missing org is a 500 "Invalid organization". An unreadable `:id` is a 500 carrying that failure. Otherwise the answer is 200 iff the contract's delete succeeds, with the ledger the delete left, and else a 500 naming the contract's error as its cause. Any 500 leaves the ledger unchanged. |
| Backend.GetAllNotesRoute | hyperjots-backend/src/server.js:276-309 | 400 iff org is missing or empty. An unknown organization is a 500 "Invalid organization". For a known one, the answer is 200 iff the contract's listing succeeds, and else a 500 naming the listing's error. A 200 carries the "No notes available." message iff the contract listed nothing, and otherwise the listed notes rearranged into ascending ID order. |
| BackendFacts.KeyOrderedIdsDistinct | chaincode/go/hyperjots_chaincode.go:105 | Notes listed in strictly ascending key order have pairwise distinct IDs. |
| BackendFacts.ListingIsNumericallySorted | hyperjots-backend/src/server.js:276-309 | For a known organization and a readable ledger, the listing is 200. It is the message iff the caller owns no note. Otherwise it is exactly the caller's stored notes, in strictly ascending numeric ID order. |
| BackendFacts.CreateThenRead | hyperjots-backend/src/server.js:170-231 | With the corrected create route, a note created through the API reads back through the API under the returned ID, for the same organization. |
| BackendFacts.CreateSucceedsOnReadableLedger | hyperjots-backend/src/server.js:179-196 | In a readable ledger, a create with a known organization and a nonempty title and content answers 201, and the ledger stays readable. |
| BackendFacts.UpdateThenRead | hyperjots-backend/src/server.js:234-257 | After a 200 update through the API, reading the same ID through the API returns the note with its old ID and owner and the new title and content. |
| BackendFacts.DeleteThenRead | hyperjots-backend/src/server.js:260-273 | After a successful delete through the API, reading the same ID answers 500 with "does not exist". |
| BackendFacts.OtherOrganizationDenied | chaincode/go/hyperjots_chaincode.go:200-202 | With the corrected create route, a note created by `org1`'s user is refused to `org2`'s user with "access denied", and `org2` cannot delete it. |
| BackendFacts.DeleteWithoutOrgFails | hyperjots-backend/src/server.js:260-273 | A delete without an org answers 500 "Invalid organization" and changes nothing. |
| BackendFacts.TwoNotesKeyOrder | chaincode/go/hyperjots_chaincode.go:105 | With notes 2 and 10 stored, the range scan visits "10", then "2", then the counter. |
| BackendFacts.TwoNotesContractOrder | chaincode/go/hyperjots_chaincode.go:98-137 | The contract lists note 10 before note 2. |
| BackendFacts.TextOrderVersusNumericOrder | hyperjots-backend/src/server.js:298-299 | The REST answer for the same ledger lists note 2 before note 10. |
| BackendFacts.ByteCodeNoteIdRightOnlyAt53 | hyperjots-backend/src/server.js:189 | The create route as written returns the note's own ID only for note 53; for every other ID it returns a different number. |
| BackendFacts.CreateAnswersByteCode | hyperjots-backend/src/server.js:189 | From an empty ledger, the first create stores note 1, but the route as written answers `noteID` 49, and reading 49 fails with "does not exist". The corrected route answers 1. |
| JsText.TrimStart | hyperjots-frontend/src/context/UserContext.jsx:35 | Removes exactly the leading white space: the result is a suffix, the removed prefix is all white space, and the result does not start with white space. |
| JsText.TrimEnd | hyperjots-frontend/src/context/UserContext.jsx:35 | Removes exactly the trailing white space, symmetrically. |
| JsText.BlankIffAllSpace | hyperjots-frontend/src/context/UserContext.jsx:35 | `!s.trim()` holds exactly when every character of `s` is white space or a line terminator. |
| JsText.TrimIsSlice | hyperjots-frontend/src/context/UserContext.jsx:68 | The trimmed text is a contiguous slice of the original, with only white space cut from either end. |
| Frontend.FetchNotes | hyperjots-frontend/src/context/UserContext.jsx:15-31 | Nothing happens without an org. An array reply replaces the list and any other reply empties it, both clearing the error. A failed request keeps the list and sets the fetch error. Loading ends in every case. |
| Frontend.AppendPending | hyperjots-frontend/src/context/UserContext.jsx:40-41 | The optimistic note, with no owner and the temporary ID, goes after the unchanged old list. |
| Frontend.ConfirmId | hyperjots-frontend/src/context/UserContext.jsx:48-54 | Every note carrying the temporary ID takes the server's ID. Every other note is unchanged, in place. |
| Frontend.DropId | hyperjots-frontend/src/context/UserContext.jsx:58-60 | The revert never lengthens the list. A list without the temporary ID comes back unchanged. |
| Frontend.DropMembers | hyperjots-frontend/src/context/UserContext.jsx:58-60 | The revert keeps exactly the notes whose ID differs from the temporary one, each as many times as the list held it, and no note with the temporary ID. |
| Frontend.DropDistributes | hyperjots-frontend/src/context/UserContext.jsx:58-60 | The revert works note by note and keeps the order: reverting a concatenation is reverting each part and concatenating the results. |
| Frontend.CreateNote | hyperjots-frontend/src/context/UserContext.jsx:34-64 | Nothing happens without an org or with a blank title or content. Otherwise loading ends, and the error is cleared on success or set to "Failed to create note." on failure. |
| Frontend.DropUndoesAppend | hyperjots-frontend/src/context/UserContext.jsx:58-60 | When the temporary ID was not already in the list, reverting the optimistic insert restores the list from before it. |
| Frontend.ConfirmSettlesAppend | hyperjots-frontend/src/context/UserContext.jsx:48-54 | When the temporary ID was new, confirming gives the old list plus the new note under the server's ID at the end. |
| Frontend.CreateOutcome | hyperjots-frontend/src/context/UserContext.jsx:34-64 | A create whose temporary ID is new ends with the old list plus the server-numbered note on success, and with the old list on failure. |
| Frontend.FailedCreateDropsCollidingNote | hyperjots-frontend/src/context/UserContext.jsx:58-60 | When the temporary ID is already in the list, a failed create also drops the note already listed under it, leaving a shorter list than before. |
| Frontend.EditNotes | hyperjots-frontend/src/context/UserContext.jsx:74-80 | The optimistic edit keeps the length, every ID and every owner. Notes with the edited ID get the new title and content; all others are unchanged. |
| Frontend.UpdateNote | hyperjots-frontend/src/context/UserContext.jsx:67-95 | Nothing happens for a zero ID or a blank title or content. On success the list is edited in place and the error cleared. On failure the snapshot is restored exactly and "Error updating note." is set. |
| FrontendFacts.FetchShowsListing | hyperjots-frontend/src/context/UserContext.jsx:15-31 | For a known organization and a readable ledger, a refresh against the list route clears the error. It shows exactly the caller's stored notes, in strictly ascending ID order, and is empty exactly when the caller owns no note. |
| FrontendFacts.FetchUnknownOrganization | hyperjots-frontend/src/context/UserContext.jsx:25-26 | A refresh for an organization the server does not know keeps the old list and shows the fetch error. |

## Left out

- The gRPC connection, TLS, certificate and key loading, signing, gateway and client closing, and the Express server itself are I/O. Each organization's user is represented by its client identity string (`Identities`).
- `getClientID`'s own failure is left out. The identity is a parameter and is always available.
- `hyperjots-backend/src/demo.js` and `hyperjots-backend/src/app.js` are not part of this model: the handlers modelled are those of `server.js`.
- Endorsement, ordering, MVCC conflicts between concurrent transactions and `PutState`/`DelState`/`GetState` I/O errors are not modelled. Transactions are applied one at a time, and a failing one is not committed.
- JSON byte encodings are not modelled. An entry is either a note or a bare number, and an unmarshal failure is an entry of the wrong shape or a number outside Go's 64-bit `int`. The contract's empty note list is assumed to reach the REST layer as an empty payload or `[]`; both give the same answer.
- Request strings are modelled as Dafny strings, which are sequences of Unicode scalar values. A JavaScript string may hold a lone UTF-16 surrogate, which passes the handlers' falsiness checks and is replaced by U+FFFD when the gateway UTF-8-encodes the transaction arguments. So Backend.PostCreateNote's read-back clause, BackendFacts.CreateThenRead and BackendFacts.UpdateThenRead hold only for well-formed text; for a lone surrogate the source reads back U+FFFD instead.
- JavaScript numbers above 2^53 lose precision in `parseInt` and in the browser. The model keeps exact integers.
- Backend.NoteIdArg: the REST layer passes the `:id` text through unchanged, and the contract API's conversion of it to a Go `int` is modelled as `strconv.Atoi` (optional sign, decimal digits, 64-bit range). Other spellings that conversion might accept are not modelled.
- Backend.PostCreateNote: this is the corrected route. The route as written (Backend.PostCreateNoteAsWritten) reads a byte code rather than the ID, as recorded under Findings. Both read the contract's reply as ASCII key text, so a `NaN` `noteID` cannot arise.
- BackendFacts.CreateThenRead: this is stated for the corrected create route. With the route as written, the returned `noteID` is a character code (BackendFacts.CreateAnswersByteCode).
- BackendFacts.OtherOrganizationDenied: this is stated for the corrected create route, for the same reason.
- Request fields are modelled as strings or absent. Express hands the handlers arbitrary JSON values, and those are not modelled. For example, a numeric `title` such as `0` is falsy, and an array `org` such as `["org1"]` converts to the key `org1` in the organization lookup.
- Every 500 body names the failure's cause: the unknown organization, the unreadable ID, or the contract's own error. The handlers send `error.message` from the gateway client's exception, and its exact text is not modelled. For a failed endorsement that text may be a generic message that carries the chaincode's error only in its details.
- Backend.GetContract: a prototype property name such as `toString` used as `org` would pass the JavaScript lookup and fail later. The model rejects it up front, also with a 500, but with the "Invalid organization" message rather than the later failure's.
- The React components, `localStorage`, `useEffect`, and the interleaving of concurrent `async` handlers are left out. Each handler is one sequential run from its starting view to the view after the server's answer; the intermediate `loading: true` render is not modelled.
- Frontend.CreateNote: on success the server's `noteID` is taken as given (`CreateOk`). The case where it is missing from the reply is not modelled.
- Frontend.UpdateNote: the organization only travels with the request, so it is not a parameter. A string ID from a route parameter, compared with `===` against numeric IDs, is not modelled; IDs are integers.
- Frontend.FetchNotes: the contents of an array reply are taken as given notes. Arbitrary JSON values are not modelled.
- Ledger.CreateIsFresh, Ledger.RunAllocatesIncreasingIds, Ledger.RunNeverOverwrites: these are stated only below the counter's 64-bit wrap-around point and for runs without a counter reset. Past either, IDs are reused, as Ledger.ResetThenCreateOverwrites shows.

## Findings

| source | as written | input that shows it | evidently intended | confidence | as-written member | corrected member |
|---|---|---|---|---|---|---|
| hyperjots-backend/src/server.js:189 | The create route turns the contract's reply bytes, a `Uint8Array`, into text with `toString()`. That joins the byte codes with commas, and `parseInt` keeps only the first code. | The first create on an empty ledger stores note 1 but answers `noteID` 49. Note 12 would also answer 49. | Decode the reply as UTF-8 text first, as the read and list routes do at lines 219 and 291, so that `noteID` is the stored ID. | medium: not executed; rests on the gateway resolving to a plain `Uint8Array` | Backend.PostCreateNoteAsWritten, BackendFacts.CreateAnswersByteCode, BackendFacts.ByteCodeNoteIdRightOnlyAt53 | Backend.PostCreateNote, BackendFacts.CreateThenRead |

=== FILE: backend.dfy ===
/**
  The Express REST layer: five `/api` handlers that check their request, pick the
  organization's contract connection, run one contract transaction and turn its outcome
  into an HTTP status and JSON body. The contract call is the ledger model itself, run
  with the organization user's client identity.
*/
module Backend {
  import opened Results
  import opened Chaincode
  import Decimal
  import NoteOrder

  /** The client identity of each organization's user, derived from its certificate. */
  datatype Identities = Identities(org1: string, org2: string)

  /**
    Why a handler fell into its `catch`. The 500 body names this cause; the text of
    the error object the handler actually sends is not modelled.
  */
  datatype Failure =
    | InvalidOrganization(org: Option<string>)   // Invalid organization: <org>
    | BadArgument(text: string)                  // the contract could not read a note ID
    | Contract(error: Error)                     // the transaction's own error

  datatype Body =
    | ErrorText(text: string)        // { error: <text> } from a guard
    | Failed(failure: Failure)       // { error: error.message }
    | Message(text: string)          // { message: <text> }
    | Created(noteID: Option<int>)   // { message: 'Note created successfully', noteID }, None for NaN
    | NoteBody(note: Note)
    | NoteList(notes: seq<Note>)

  datatype Response = Response(status: int, body: Body)

  /** A handler that submits a transaction: the ledger afterwards and the HTTP answer. */
  datatype Handled = Handled(state: State, response: Response)

  const FieldsRequired: string := "Title and content are required."
  const OrgRequired: string := "Organization (org) is required as a query parameter."
  const NoNotes: string := "No notes available."
  const Updated: string := "Note updated successfully"
  const Deleted: string := "Note deleted successfully"

  /** JavaScript falsiness of a request field that is a string or absent. */
  predicate Falsy(v: Option<string>) {
    v.None? || v.value == ""
  }

  /** `getContract`'s organization lookup: only `org1` and `org2` have a connection profile. */
  function GetContract(ids: Identities, org: Option<string>): (r: Result<string, Failure>)
    ensures r.Ok? <==> org == Some("org1") || org == Some("org2")
    ensures org == Some("org1") ==> r == Ok(ids.org1)
    ensures org == Some("org2") ==> r == Ok(ids.org2)
    ensures r.Err? ==> r.error == InvalidOrganization(org)
  {
    match org
    case Some("org1") => Ok(ids.org1)
    case Some("org2") => Ok(ids.org2)
    case _ => Err(InvalidOrganization(org))
  }

  /** The contract's reading of a route's `:id` as a Go `int`. */
  function NoteIdArg(text: string): (r: Result<int, Failure>)
    ensures r.Ok? <==> Decimal.Parse(text).Some? && IsInt64(Decimal.Parse(text).value)
    ensures r.Ok? ==> r.value == Decimal.Parse(text).value
    ensures r.Err? ==> r.error == BadArgument(text)
    ensures forall id :: IsInt64(id) && text == Decimal.Format(id) ==> r == Ok(id)
  {
    Decimal.ParseFormatted(text);
    match Decimal.Parse(text)
    case Some(id) => if IsInt64(id) then Ok(id) else Err(BadArgument(text))
    case None => Err(BadArgument(text))
  }

  /**
    `POST /api/createNote`, with the contract's reply decoded as UTF-8 text before
    `parseInt`, as the read and list routes decode theirs.
  */
  function PostCreateNote(st: State, ids: Identities, org: Option<string>, title: Option<string>, content: Option<string>): (h: Handled)
    ensures h.response.status == 400 <==> Falsy(title) || Falsy(content)
    ensures h.response.status == 400 ==> h.response.body == ErrorText(FieldsRequired)
    ensures h.response.status != 201 ==> h.state == st
    ensures h.response.status in {201, 400, 500}
    ensures !Falsy(title) && !Falsy(content) && GetContract(ids, org).Err? ==>
      h.response == Response(500, Failed(GetContract(ids, org).error))
    ensures !Falsy(title) && !Falsy(content) && GetContract(ids, org).Ok? ==>
      var c := CreateNote(st, GetContract(ids, org).value, title.value, content.value);
      && (h.response.status == 201 <==> c.result.Ok?)
      && (c.result.Err? ==> h.response == Response(500, Failed(Contract(c.result.error))))
    ensures h.response.status == 201 ==>
      var caller := GetContract(ids, org).value;
      var c := CreateNote(st, caller, title.value, content.value);
      && c.result.Ok?
      && h.response.body == Created(Some(c.result.value))
      && h.state == c.state
      && ReadNote(h.state, caller, c.result.value) == Ok(Note(c.result.value, caller, title.value, content.value))
  {
    if Falsy(title) || Falsy(content) then Handled(st, Response(400, ErrorText(FieldsRequired)))
    else match GetContract(ids, org)
      case Err(f) => Handled(st, Response(500, Failed(f)))
      case Ok(caller) =>
        var r := CreateNote(st, caller, title.value, content.value);
        match r.result
        case Err(e) => Handled(st, Response(500, Failed(Contract(e))))
        case Ok(id) =>
          Decimal.ParseLeadingFormat(id);
          Handled(r.state, Response(201, Created(Decimal.ParseLeading(Key(id)))))
  }

  /**
    `Uint8Array.prototype.toString` on the bytes of `text`: their codes in decimal,
    joined by commas. A key is ASCII text, so its bytes are its character codes.
  */
  function JoinCodes(text: string): string
    requires |text| > 0
    decreases |text|
  {
    Decimal.NatDigits(text[0] as nat) + (if |text| == 1 then "" else "," + JoinCodes(text[1..]))
  }

  /**
    The create route's `noteID` as written: `parseInt` of the comma-joined byte codes of
    the reply, which stops at the first comma and so yields the code of the key's first
    character.
  */
  function ByteCodeNoteId(id: int): (r: Option<int>)
    ensures r == Some(Key(id)[0] as int)
  {
    var key := Key(id);
    Decimal.FormatHead(id);
    Decimal.ParseLeadingStops(key[0] as nat, if |key| == 1 then "" else "," + JoinCodes(key[1..]));
    Decimal.ParseLeading(JoinCodes(key))
  }

  /**
    `POST /api/createNote` as written: the same request handling, ledger effect and
    status as `PostCreateNote`, but the 201 body carries `ByteCodeNoteId` of the new ID.
  */
  function PostCreateNoteAsWritten(st: State, ids: Identities, org: Option<string>, title: Option<string>, content: Option<string>): (h: Handled)
    ensures var fixed := PostCreateNote(st, ids, org, title, content);
      && h.state == fixed.state
      && h.response.status == fixed.response.status
      && (h.response.status != 201 ==> h.response == fixed.response)
      && (h.response.status == 201 ==>
            h.response.body == Created(Some(Key(fixed.response.body.noteID.value)[0] as int)))
  {
    var fixed := PostCreateNote(st, ids, org, title, content);
    if fixed.response.status == 201 then
      Handled(fixed.state, Response(201, Created(ByteCodeNoteId(fixed.response.body.noteID.value))))
    else fixed
  }

  /** `GET /api/readNote/:id?org=`: evaluated, never committed. */
  function GetReadNote(st: State, ids: Identities, org: Option<string>, idText: string): (r: Response)
    ensures r.status == 400 <==> Falsy(org)
    ensures r.status == 400 ==> r.body == ErrorText(OrgRequired)
    ensures r.status in {200, 400, 500}
    ensures r.status == 200 <==>
      && !Falsy(org) && GetContract(ids, org).Ok? && NoteIdArg(idText).Ok?
      && ReadNote(st, GetContract(ids, org).value, NoteIdArg(idText).value).Ok?
    ensures r.status == 200 ==>
      r.body == NoteBody(ReadNote(st, GetContract(ids, org).value, NoteIdArg(idText).value).value)
    ensures !Falsy(org) && GetContract(ids, org).Err? ==>
      r == Response(500, Failed(GetContract(ids, org).error))
    ensures !Falsy(org) && GetContract(ids, org).Ok? && NoteIdArg(idText).Err? ==>
      r == Response(500, Failed(NoteIdArg(idText).error))
    ensures !Falsy(org) && GetContract(ids, org).Ok? && NoteIdArg(idText).Ok? ==>
      var read := ReadNote(st, GetContract(ids, org).value, NoteIdArg(idText).value);
      read.Err? ==> r == Response(500, Failed(Contract(read.error)))
  {
    if Falsy(org) then Response(400, ErrorText(OrgRequired))
    else match GetContract(ids, org)
      case Err(f) => Response(500, Failed(f))
      case Ok(caller) =>
        match NoteIdArg(idText)
        case Err(f) => Response(500, Failed(f))
        case Ok(id) =>
          match ReadNote(st, caller, id)
          case Err(e) => Response(500, Failed(Contract(e)))
          case Ok(n) => Response(200, NoteBody(n))
  }

  /** `PUT /api/updateNote/:id`. */
  function PutUpdateNote(st: State, ids: Identities, org: Option<string>, idText: string, title: Option<string>, content: Option<string>): (h: Handled)
    ensures h.response.status == 400 <==> Falsy(title) || Falsy(content)
    ensures h.response.status == 400 ==> h.response.body == ErrorText(FieldsRequired)
    ensures h.response.status in {200, 400, 500}
    ensures h.response.status != 200 ==> h.state == st
    ensures !Falsy(title) && !Falsy(content) && GetContract(ids, org).Err? ==>
      h.response == Response(500, Failed(GetContract(ids, org).error))
    ensures !Falsy(title) && !Falsy(content) && GetContract(ids, org).Ok? && NoteIdArg(idText).Err? ==>
      h.response == Response(500, Failed(NoteIdArg(idText).error))
    ensures !Falsy(title) && !Falsy(content) && GetContract(ids, org).Ok? && NoteIdArg(idText).Ok? ==>
      var u := UpdateNote(st, GetContract(ids, org).value, NoteIdArg(idText).value, title.value, content.value);
      && (h.response.status == 200 <==> u.result.Ok?)
      && (u.result.Err? ==> h.response == Response(500, Failed(Contract(u.result.error))))
    ensures h.response.status == 200 ==>
      && h.response.body == Message(Updated)
      && GetContract(ids, org).Ok? && NoteIdArg(idText).Ok?
      && var u := UpdateNote(st, GetContract(ids, org).value, NoteIdArg(idText).value, title.value, content.value);
      && u.result.Ok? && h.state == u.state
  {
    if Falsy(title) || Falsy(content) then Handled(st, Response(400, ErrorText(FieldsRequired)))
    else match GetContract(ids, org)
      case Err(f) => Handled(st, Response(500, Failed(f)))
      case Ok(caller) =>
        match NoteIdArg(idText)
        case Err(f) => Handled(st, Response(500, Failed(f)))
        case Ok(id) =>
          var u := UpdateNote(st, caller, id, title.value, content.value);
          match u.result
          case Err(e) => Handled(st, Response(500, Failed(Contract(e))))
          case Ok(_) => Handled(u.state, Response(200, Message(Updated)))
  }

  /** `DELETE /api/deleteNote/:id?org=`: no request guard, so a missing organization is a 500. */
  function DeleteNoteRoute(st: State, ids: Identities, org: Option<string>, idText: string): (h: Handled)
    ensures h.response.status in {200, 500}
    ensures h.response.status == 500 ==> h.state == st
    ensures GetContract(ids, org).Err? ==> h.response == Response(500, Failed(InvalidOrganization(org)))
    ensures GetContract(ids, org).Ok? && NoteIdArg(idText).Err? ==>
      h.response == Response(500, Failed(NoteIdArg(idText).error))
    ensures GetContract(ids, org).Ok? && NoteIdArg(idText).Ok? ==>
      var d := DeleteNote(st, GetContract(ids, org).value, NoteIdArg(idText).value);
      && (h.response.status == 200 <==> d.result.Ok?)
      && (d.result.Err? ==> h.response == Response(500, Failed(Contract(d.result.error))))
    ensures h.response.status == 200 ==>
      && h.response.body == Message(Deleted)
      && GetContract(ids, org).Ok? && NoteIdArg(idText).Ok?
      && var d := DeleteNote(st, GetContract(ids, org).value, NoteIdArg(idText).value);
      && d.result.Ok? && h.state == d.state
  {
    match GetContract(ids, org)
    case Err(f) => Handled(st, Response(500, Failed(f)))
    case Ok(caller) =>
      match NoteIdArg(idText)
      case Err(f) => Handled(st, Response(500, Failed(f)))
      case Ok(id) =>
        var d := DeleteNote(st, caller, id);
        match d.result
        case Err(e) => Handled(st, Response(500, Failed(Contract(e))))
        case Ok(_) => Handled(d.state, Response(200, Message(Deleted)))
  }

  /**
    `GET /api/getAllNotes?org=`: the caller's notes re-sorted by numeric ID, or a
    message when there are none. The contract's empty list reaches the handler as an
    empty payload or as `[]`, and both answer with the message.
  */
  function GetAllNotesRoute(st: State, ids: Identities, org: Option<string>): (r: Response)
    ensures r.status == 400 <==> Falsy(org)
    ensures r.status == 400 ==> r.body == ErrorText(OrgRequired)
    ensures r.status in {200, 400, 500}
    ensures r.status == 200 ==> r.body.Message? || r.body.NoteList?
    ensures r.status == 200 && r.body.Message? ==> r.body.text == NoNotes
    ensures !Falsy(org) && GetContract(ids, org).Err? ==>
      r == Response(500, Failed(GetContract(ids, org).error))
    ensures !Falsy(org) && GetContract(ids, org).Ok? ==>
      var all := GetAllNotes(st, GetContract(ids, org).value);
      && (r.status == 200 <==> all.Ok?)
      && (all.Err? ==> r == Response(500, Failed(Contract(all.error))))
    ensures r.status == 200 ==> GetContract(ids, org).Ok? && GetAllNotes(st, GetContract(ids, org).value).Ok?
    ensures r.status == 200 ==>
      var all := GetAllNotes(st, GetContract(ids, org).value);
      && (r.body.Message? <==> |all.value| == 0)
      && (r.body.NoteList? ==>
            NoteOrder.SortedById(r.body.notes) && multiset(r.body.notes) == multiset(all.value))
  {
    if Falsy(org) then Response(400, ErrorText(OrgRequired))
    else match GetContract(ids, org)
      case Err(f) => Response(500, Failed(f))
      case Ok(caller) =>
        match GetAllNotes(st, caller)
        case Err(e) => Response(500, Failed(Contract(e)))
        case Ok(notes) =>
          if |notes| == 0 then Response(200, Message(NoNotes))
          else
            NoteOrder.SortIsSortedPermutation(notes);
            Response(200, NoteList(NoteOrder.SortById(notes)))
  }
}

=== FILE: backend_facts.dfy ===
/**
  What the REST layer and the contract promise together: a created note reads back
  through the API, a deleted one is gone, another organization's user is refused, and
  the note list comes back in numeric ID order although the ledger lists keys as text.
*/
module BackendFacts {
  import opened Results
  import opened Chaincode
  import Decimal
  import LexOrder
  import NoteOrder
  import opened Backend
  import Ledger

  /** Notes listed in strictly ascending key-text order have pairwise distinct IDs. */
  lemma KeyOrderedIdsDistinct(ns: seq<Note>)
    requires forall i, j :: 0 <= i < j < |ns| ==> LexOrder.Less(Key(ns[i].noteID), Key(ns[j].noteID))
    ensures NoteOrder.DistinctIds(ns)
  {
    forall i, j | 0 <= i < j < |ns|
      ensures ns[i].noteID != ns[j].noteID
    {
      LexOrder.Irreflexive(Key(ns[i].noteID));
    }
  }

  /**
    In a readable ledger a listing for a known organization answers 200 with exactly
    the caller's notes in strictly ascending numeric ID order, or with the message when
    the caller owns none.
  */
  lemma ListingIsNumericallySorted(st: State, ids: Identities, org: string)
    requires Wf(st) && (org == "org1" || org == "org2")
    ensures var r := GetAllNotesRoute(st, ids, Some(org));
      var caller := GetContract(ids, Some(org)).value;
      && r.status == 200
      && (r.body.Message? <==> forall k :: k in st && k != CounterKey ==> st[k].note.owner != caller)
      && (r.body.NoteList? ==>
            && NoteOrder.StrictlyById(r.body.notes)
            && forall n :: n in r.body.notes <==>
                 Key(n.noteID) in st && st[Key(n.noteID)] == NoteEntry(n) && n.owner == caller)
  {
    var caller := GetContract(ids, Some(org)).value;
    var all := GetAllNotes(st, caller).value;
    var r := GetAllNotesRoute(st, ids, Some(org));
    KeyOrderedIdsDistinct(all);
    forall n
      ensures n in all <==> Key(n.noteID) in st && st[Key(n.noteID)] == NoteEntry(n) && n.owner == caller
    {
      if n in all {
        var k :| k in st && k != CounterKey && DecodeNote(st[k]) == Some(n) && n.owner == caller;
        assert k == Key(n.noteID);
      }
      if Key(n.noteID) in st && st[Key(n.noteID)] == NoteEntry(n) && n.owner == caller {
        KeyIsNotCounter(n.noteID);
        assert DecodeNote(st[Key(n.noteID)]) == Some(n);
      }
    }
    if |all| == 0 {
      forall k | k in st && k != CounterKey
        ensures st[k].note.owner != caller
      {
        assert DecodeNote(st[k]) == Some(st[k].note);
      }
    } else {
      assert all[0] in all;
      NoteOrder.SortStrictWhenDistinct(all);
      NoteOrder.SortIsSortedPermutation(all);
      forall n
        ensures n in r.body.notes <==> n in all
      {
        assert n in r.body.notes <==> n in multiset(r.body.notes);
        assert n in all <==> n in multiset(all);
      }
    }
  }

  /** A note created through the API reads back through the API with the returned ID. */
  lemma CreateThenRead(st: State, ids: Identities, org: string, title: string, content: string)
    requires PostCreateNote(st, ids, Some(org), Some(title), Some(content)).response.status == 201
    ensures var h := PostCreateNote(st, ids, Some(org), Some(title), Some(content));
      var id := h.response.body.noteID.value;
      var caller := GetContract(ids, Some(org)).value;
      GetReadNote(h.state, ids, Some(org), Decimal.Format(id)) == Response(200, NoteBody(Note(id, caller, title, content)))
  {
    var h := PostCreateNote(st, ids, Some(org), Some(title), Some(content));
    var id := h.response.body.noteID.value;
    Decimal.FormatRoundTrip(id);
    assert IsInt64(id) by {
      var caller := GetContract(ids, Some(org)).value;
      assert ReadNote(h.state, caller, id).Ok?;
    }
  }

  /**
    In a readable ledger, a create with a known organization and a nonempty title and
    content answers 201, and the ledger stays readable.
  */
  lemma CreateSucceedsOnReadableLedger(st: State, ids: Identities, org: string, title: string, content: string)
    requires Wf(st) && (org == "org1" || org == "org2") && title != "" && content != ""
    ensures var h := PostCreateNote(st, ids, Some(org), Some(title), Some(content));
      h.response.status == 201 && Wf(h.state)
  {
    var caller := GetContract(ids, Some(org)).value;
    Ledger.WfFailuresAreAuthorization(st, caller, Ledger.CreateNoteTx(title, content));
    Ledger.ExecutePreservesWf(st, caller, Ledger.CreateNoteTx(title, content));
  }

  /**
    After a 200 update through the API, reading the same ID through the API returns the
    note with the new title and content and its old ID and owner.
  */
  lemma UpdateThenRead(st: State, ids: Identities, org: string, idText: string, title: string, content: string)
    requires PutUpdateNote(st, ids, Some(org), idText, Some(title), Some(content)).response.status == 200
    ensures var h := PutUpdateNote(st, ids, Some(org), idText, Some(title), Some(content));
      var before := ReadNote(st, GetContract(ids, Some(org)).value, NoteIdArg(idText).value);
      && before.Ok?
      && GetReadNote(h.state, ids, Some(org), idText) ==
           Response(200, NoteBody(before.value.(title := title, content := content)))
  {
    var caller := GetContract(ids, Some(org)).value;
    var id := NoteIdArg(idText).value;
    var before := ReadNote(st, caller, id).value;
    var h := PutUpdateNote(st, ids, Some(org), idText, Some(title), Some(content));
    assert h.state[Key(id)] == NoteEntry(before.(title := title, content := content));
  }

  /** After a successful delete through the API, reading the same ID answers 500 "does not exist". */
  lemma DeleteThenRead(st: State, ids: Identities, org: string, idText: string)
    requires DeleteNoteRoute(st, ids, Some(org), idText).response.status == 200
    ensures var h := DeleteNoteRoute(st, ids, Some(org), idText);
      GetReadNote(h.state, ids, Some(org), idText) ==
        Response(500, Failed(Contract(NoteNotFound(NoteIdArg(idText).value))))
  {
    var h := DeleteNoteRoute(st, ids, Some(org), idText);
    Ledger.ReadAfterDelete(st, GetContract(ids, Some(org)).value, GetContract(ids, Some(org)).value, NoteIdArg(idText).value);
  }

  /** A note created by one organization's user is refused to the other organization's user. */
  lemma OtherOrganizationDenied(st: State, ids: Identities, title: string, content: string)
    requires ids.org1 != ids.org2
    requires PostCreateNote(st, ids, Some("org1"), Some(title), Some(content)).response.status == 201
    ensures var h := PostCreateNote(st, ids, Some("org1"), Some(title), Some(content));
      var id := h.response.body.noteID.value;
      && GetReadNote(h.state, ids, Some("org2"), Decimal.Format(id)) == Response(500, Failed(Contract(AccessDenied)))
      && DeleteNoteRoute(h.state, ids, Some("org2"), Decimal.Format(id)).state == h.state
  {
    var h := PostCreateNote(st, ids, Some("org1"), Some(title), Some(content));
    var id := h.response.body.noteID.value;
    Decimal.FormatRoundTrip(id);
    assert IsInt64(id) by {
      assert ReadNote(h.state, ids.org1, id).Ok?;
    }
  }

  /** Without a request guard, a delete with no organization is always a 500 and changes nothing. */
  lemma DeleteWithoutOrgFails(st: State, ids: Identities, idText: string)
    ensures DeleteNoteRoute(st, ids, None, idText) == Handled(st, Response(500, Failed(InvalidOrganization(None))))
  {
  }

  /** A ledger in which one user owns notes 2 and 10 and the counter stands at 10. */
  function TwoNotes(owner: string, title: string, content: string): State {
    map[CounterKey := CounterEntry(10),
        "2" := NoteEntry(Note(2, owner, title, content)),
        "10" := NoteEntry(Note(10, owner, title, content))]
  }

  lemma TwoNotesKeyOrder(owner: string, title: string, content: string)
    ensures LexOrder.SortedKeys(TwoNotes(owner, title, content).Keys) == ["10", "2", CounterKey]
  {
    var order := ["10", "2", CounterKey];
    assert LexOrder.Less("10", "2");
    assert LexOrder.Less("2", CounterKey);
    assert LexOrder.Less("10", CounterKey);
    assert LexOrder.StrictlySorted(order);
    LexOrder.SortedUnique(LexOrder.SortedKeys(TwoNotes(owner, title, content).Keys), order);
  }

  /** One scan step over a note key the caller owns puts that note in front of the rest. */
  lemma CollectOwnedKey(st: State, caller: string, keys: seq<string>, n: Note, rest: seq<Note>)
    requires forall k :: k in keys ==> k in st
    requires |keys| > 0 && keys[0] != CounterKey
    requires DecodeNote(st[keys[0]]) == Some(n) && n.owner == caller
    requires Collect(st, caller, keys[1..]) == Ok(rest)
    ensures Collect(st, caller, keys) == Ok([n] + rest)
  {
  }

  /** The contract lists note 10 before note 2: "10" sorts before "2" as text. */
  lemma TwoNotesContractOrder(owner: string, title: string, content: string)
    ensures GetAllNotes(TwoNotes(owner, title, content), owner) ==
      Ok([Note(10, owner, title, content), Note(2, owner, title, content)])
  {
    var st := TwoNotes(owner, title, content);
    var n2 := Note(2, owner, title, content);
    var n10 := Note(10, owner, title, content);
    TwoNotesKeyOrder(owner, title, content);
    var order := ["10", "2", CounterKey];
    assert [CounterKey][1..] == [];
    assert Collect(st, owner, [CounterKey]) == Ok([]);
    assert order[1..][1..] == [CounterKey];
    CollectOwnedKey(st, owner, order[1..], n2, []);
    assert [n2] + [] == [n2];
    CollectOwnedKey(st, owner, order, n10, [n2]);
    assert [n10] + [n2] == [n10, n2];
  }

  /**
    The ledger lists keys as text, so note 10 comes before note 2; the API answer puts
    note 2 first.
  */
  lemma TextOrderVersusNumericOrder(ids: Identities, title: string, content: string)
    ensures GetAllNotesRoute(TwoNotes(ids.org1, title, content), ids, Some("org1")) ==
      Response(200, NoteList([Note(2, ids.org1, title, content), Note(10, ids.org1, title, content)]))
  {
    var n2 := Note(2, ids.org1, title, content);
    var n10 := Note(10, ids.org1, title, content);
    var st := TwoNotes(ids.org1, title, content);
    TwoNotesContractOrder(ids.org1, title, content);
    assert GetContract(ids, Some("org1")) == Ok(ids.org1);
    assert GetAllNotes(st, ids.org1) == Ok([n10, n2]);
    SortTwo(n10, n2);
  }

  /** Two notes given in descending ID order come back swapped. */
  lemma SortTwo(a: Note, b: Note)
    requires b.noteID < a.noteID
    ensures NoteOrder.SortById([a, b]) == [b, a]
  {
    assert [a, b][1..] == [b];
    assert NoteOrder.SortById([b]) == [b] by {
      assert [b][1..] == [];
    }
    assert NoteOrder.Insert(a, [b]) == [b] + NoteOrder.Insert(a, []);
  }

  /** The create route as written returns a note's ID only for note 53: elsewhere it returns a character code. */
  lemma ByteCodeNoteIdRightOnlyAt53(id: int)
    ensures ByteCodeNoteId(id) == Some(id) <==> id == 53
  {
    var key := Key(id);
    Decimal.FormatHead(id);
    var c := key[0] as int;
    assert c == 45 || 48 <= c <= 57;
    if 0 <= id < 10 {
      assert key == [Decimal.DigitChar(id)];
    } else if 10 <= id < 100 {
      assert key == Decimal.NatDigits(id / 10) + [Decimal.DigitChar(id % 10)];
      assert Decimal.NatDigits(id / 10) == [Decimal.DigitChar(id / 10)];
      assert c == 48 + id / 10;
      if id / 10 == 5 {
        assert c == 53;
      }
    }
  }

  /**
    From an empty ledger, the first create stores note 1, but the route as written
    answers `noteID` 49, the code of the character "1", and reading 49 fails; the
    corrected route answers 1.
  */
  lemma CreateAnswersByteCode(ids: Identities)
    ensures var h := PostCreateNoteAsWritten(map[], ids, Some("org1"), Some("t"), Some("c"));
      && h.response == Response(201, Created(Some(49)))
      && ReadNote(h.state, ids.org1, 1) == Ok(Note(1, ids.org1, "t", "c"))
      && GetReadNote(h.state, ids, Some("org1"), "49") == Response(500, Failed(Contract(NoteNotFound(49))))
    ensures PostCreateNote(map[], ids, Some("org1"), Some("t"), Some("c")).response == Response(201, Created(Some(1)))
  {
    var st: State := map[];
    var fixed := PostCreateNote(st, ids, Some("org1"), Some("t"), Some("c"));
    assert Key(1) == "1" by {
      assert Decimal.NatDigits(1) == [Decimal.DigitChar(1)];
    }
    assert CreateNote(st, ids.org1, "t", "c").result == Ok(1);
    assert fixed.response.body.noteID == Some(1);
    assert Key(49) == "49" by {
      assert Decimal.NatDigits(49) == Decimal.NatDigits(4) + [Decimal.DigitChar(9)];
      assert Decimal.NatDigits(4) == [Decimal.DigitChar(4)];
    }
    assert NoteIdArg("49") == Ok(49);
    var h := PostCreateNoteAsWritten(st, ids, Some("org1"), Some("t"), Some("c"));
    assert h.state.Keys == {CounterKey, "1"};
    assert Key(49) !in h.state;
  }
}

=== FILE: chaincode.dfy ===
/**
  The note-ledger smart contract: a key/value world state holding one entry per note,
  stored under the decimal text of its ID, plus a `note_counter` entry that hands out
  IDs. Every transaction is a function of the state, the caller's client identity and
  its arguments, and yields the state it leaves behind with its result. Fabric commits a
  transaction's writes only when it succeeds, so a failing transaction leaves the
  state as it found it.
*/
module Chaincode {
  import opened Results
  import Decimal
  import LexOrder

  const CounterKey: string := "note_counter"

  const MaxInt64: int := 0x7FFF_FFFF_FFFF_FFFF
  const MinInt64: int := -0x8000_0000_0000_0000

  /** The range of Go's `int` on the 64-bit platforms the peer runs on. */
  predicate IsInt64(i: int) {
    MinInt64 <= i <= MaxInt64
  }

  /** Go's `counter++` on a 64-bit `int`: wraps from the largest value to the smallest. */
  function Increment(c: int): (r: int)
    requires IsInt64(c)
    ensures IsInt64(r)
  {
    if c == MaxInt64 then MinInt64 else c + 1
  }

  datatype Note = Note(noteID: int, owner: string, title: string, content: string)

  /**
    What a ledger key holds once its JSON is read back: a note object or a bare number
    (the counter). Reading one as the other, or a number outside `int`'s range, is the
    contract's unmarshal failure.
  */
  datatype Entry = NoteEntry(note: Note) | CounterEntry(value: int)

  type State = map<string, Entry>

  datatype Error =
    | NoteNotFound(noteID: int)     // note with ID <id> does not exist
    | AccessDenied                  // access denied: you are not the owner of this note
    | CorruptNote(noteID: int)      // failed to unmarshal note
    | CorruptCounter                // failed to unmarshal note counter
    | CorruptEntry(key: string)     // failed to unmarshal note data (GetAllNotes)
    | NewIdFailed(cause: Error)     // failed to generate new note ID: <cause>

  /** A transaction's outcome: the state it leaves and its return value or error. */
  datatype Reply<T> = Reply(state: State, result: Result<T, Error>)

  /** A freshly allocated ID and the state holding the advanced counter. */
  datatype Allocation = Allocation(state: State, id: int)

  /** The ledger key of a note: `fmt.Sprintf("%d", noteID)`. */
  function Key(id: int): string {
    Decimal.Format(id)
  }

  /** No note key can ever collide with the counter's key. */
  lemma KeyIsNotCounter(id: int)
    ensures Key(id) != CounterKey
  {
    Decimal.FormatHead(id);
    assert CounterKey[0] == 'n';
  }

  lemma KeyInjective(i: int, j: int)
    ensures Key(i) == Key(j) <==> i == j
  {
    Decimal.FormatInjective(i, j);
  }

  /** Reading an entry as a `Note`. */
  function DecodeNote(e: Entry): Option<Note> {
    match e
    case NoteEntry(n) => if IsInt64(n.noteID) then Some(n) else None
    case CounterEntry(_) => None
  }

  /** Reading the counter entry: absent, a valid value, or unreadable. */
  function StoredCounter(st: State): Result<Option<int>, Error> {
    if CounterKey !in st then Ok(None)
    else match st[CounterKey]
      case CounterEntry(v) => if IsInt64(v) then Ok(Some(v)) else Err(CorruptCounter)
      case NoteEntry(_) => Err(CorruptCounter)
  }

  /** `GetNoteCounter`: the stored counter, 0 while it is uninitialized. */
  function GetNoteCounter(st: State): (r: Result<int, Error>)
    ensures CounterKey !in st ==> r == Ok(0)
    ensures r.Ok? ==> IsInt64(r.value)
    ensures r.Ok? && CounterKey in st ==> st[CounterKey] == CounterEntry(r.value)
    ensures r.Err? <==> CounterKey in st && !(st[CounterKey].CounterEntry? && IsInt64(st[CounterKey].value))
  {
    match StoredCounter(st)
    case Err(e) => Err(e)
    case Ok(None) => Ok(0)
    case Ok(Some(v)) => Ok(v)
  }

  /**
    `getNextNoteID`: the ID after the one `GetNoteCounter` reports (1 when the counter
    is uninitialized), written back as the new counter.
  */
  function NextNoteId(st: State): (r: Result<Allocation, Error>)
    ensures r.Err? <==> GetNoteCounter(st).Err?
    ensures r.Ok? ==> r.value.id == Increment(GetNoteCounter(st).value)
    ensures r.Ok? ==> r.value.state == st[CounterKey := CounterEntry(r.value.id)]
    ensures r.Ok? ==> GetNoteCounter(r.value.state) == Ok(r.value.id)
    ensures CounterKey !in st ==> r.Ok? && r.value.id == 1
  {
    match StoredCounter(st)
    case Err(e) => Err(e)
    case Ok(stored) =>
      var id := if stored.None? then 1 else Increment(stored.value);
      Ok(Allocation(st[CounterKey := CounterEntry(id)], id))
  }

  /** `getNoteIfAuthorized`: the stored note, provided it exists and the caller owns it. */
  function GetNoteIfAuthorized(st: State, caller: string, id: int): (r: Result<Note, Error>)
    ensures r == Err(NoteNotFound(id)) <==> Key(id) !in st
    ensures r == Err(CorruptNote(id)) <==> Key(id) in st && DecodeNote(st[Key(id)]).None?
    ensures r == Err(AccessDenied) <==>
      Key(id) in st && DecodeNote(st[Key(id)]).Some? && DecodeNote(st[Key(id)]).value.owner != caller
    ensures r.Ok? <==>
      Key(id) in st && DecodeNote(st[Key(id)]).Some? && DecodeNote(st[Key(id)]).value.owner == caller
    ensures r.Ok? ==> st[Key(id)] == NoteEntry(r.value) && r.value.owner == caller
  {
    var key := Key(id);
    if key !in st then Err(NoteNotFound(id))
    else match DecodeNote(st[key])
      case None => Err(CorruptNote(id))
      case Some(n) => if n.owner != caller then Err(AccessDenied) else Ok(n)
  }

  /** `ReadNote`: the owner-only lookup; it never writes. */
  function ReadNote(st: State, caller: string, id: int): Result<Note, Error> {
    GetNoteIfAuthorized(st, caller, id)
  }

  /**
    `CreateNote`: allocates the next ID, stores the caller's note under that ID's key and
    returns the ID; the note's key and the counter are the only keys it touches.
  */
  function CreateNote(st: State, caller: string, title: string, content: string): (r: Reply<int>)
    ensures r.result.Ok? <==> GetNoteCounter(st).Ok?
    ensures r.result.Err? ==> r.state == st && r.result.error == NewIdFailed(GetNoteCounter(st).error)
    ensures r.result.Ok? ==>
      var id := r.result.value;
      && id == Increment(GetNoteCounter(st).value)
      && Key(id) in r.state
      && r.state[Key(id)] == NoteEntry(Note(id, caller, title, content))
      && GetNoteCounter(r.state) == Ok(id)
      && ReadNote(r.state, caller, id) == Ok(Note(id, caller, title, content))
      && (forall k :: k != Key(id) && k != CounterKey ==> (k in r.state <==> k in st))
      && (forall k :: k in st && k != Key(id) && k != CounterKey ==> r.state[k] == st[k])
  {
    match NextNoteId(st)
    case Err(e) => Reply(st, Err(NewIdFailed(e)))
    case Ok(a) =>
      KeyIsNotCounter(a.id);
      var note := Note(a.id, caller, title, content);
      Reply(a.state[Key(a.id) := NoteEntry(note)], Ok(a.id))
  }

  /**
    `UpdateNote`: the owner replaces the title and content of a note; its ID and owner
    stay, and no other key changes. Any authorization error leaves the state alone.
  */
  function UpdateNote(st: State, caller: string, id: int, title: string, content: string): (r: Reply<()>)
    ensures r.result.Ok? <==> GetNoteIfAuthorized(st, caller, id).Ok?
    ensures r.result.Err? ==> r.state == st && r.result.error == GetNoteIfAuthorized(st, caller, id).error
    ensures r.result.Ok? ==>
      var before := st[Key(id)].note;
      && Key(id) in r.state
      && r.state[Key(id)] == NoteEntry(Note(before.noteID, before.owner, title, content))
      && before.owner == caller
      && r.state.Keys == st.Keys
      && (forall k :: k in st && k != Key(id) ==> r.state[k] == st[k])
  {
    match GetNoteIfAuthorized(st, caller, id)
    case Err(e) => Reply(st, Err(e))
    case Ok(n) => Reply(st[Key(id) := NoteEntry(n.(title := title, content := content))], Ok(()))
  }

  /**
    `DeleteNote`: the owner removes the note's key and nothing else; a missing note or a
    caller who does not own it leaves the state alone.
  */
  function DeleteNote(st: State, caller: string, id: int): (r: Reply<()>)
    ensures r.result.Ok? <==> GetNoteIfAuthorized(st, caller, id).Ok?
    ensures r.result.Err? ==> r.state == st && r.result.error == GetNoteIfAuthorized(st, caller, id).error
    ensures r.result.Ok? ==>
      && Key(id) in st && Key(id) !in r.state
      && (forall k :: k != Key(id) ==> (k in r.state <==> k in st))
      && (forall k :: k in r.state ==> r.state[k] == st[k])
  {
    match GetNoteIfAuthorized(st, caller, id)
    case Err(e) => Reply(st, Err(e))
    case Ok(_) => Reply(st - {Key(id)}, Ok(()))
  }

  /** `ResetNoteCounter`: the counter becomes 0, whatever it was; notes stay. */
  function ResetNoteCounter(st: State): (r: Reply<()>)
    ensures r.result.Ok?
    ensures GetNoteCounter(r.state) == Ok(0)
    ensures forall k :: k != CounterKey ==> (k in r.state <==> k in st)
    ensures forall k :: k in st && k != CounterKey ==> r.state[k] == st[k]
  {
    Reply(st[CounterKey := CounterEntry(0)], Ok(()))
  }

  /** Every note key stores a note whose ID is that key, and the counter key stores a counter. */
  predicate KeysMatch(st: State) {
    forall k :: k in st && k != CounterKey ==> st[k].NoteEntry? && k == Key(st[k].note.noteID)
  }

  /** The states the contract's own transactions can produce: everything reads back cleanly. */
  predicate Wf(st: State) {
    && KeysMatch(st)
    && (forall k :: k in st && k != CounterKey ==> IsInt64(st[k].note.noteID))
    && GetNoteCounter(st).Ok?
  }

  /**
    The notes among `keys` (visited in order) that `caller` owns, skipping the counter;
    fails at the first entry that does not read back as a note.
  */
  function Collect(st: State, caller: string, keys: seq<string>): (r: Result<seq<Note>, Error>)
    requires forall k :: k in keys ==> k in st
    ensures r.Ok? <==> forall k :: k in keys && k != CounterKey ==> DecodeNote(st[k]).Some?
    ensures r.Ok? ==> forall n :: n in r.value <==>
      (exists k :: k in keys && k != CounterKey && DecodeNote(st[k]) == Some(n) && n.owner == caller)
    ensures r.Ok? && KeysMatch(st) ==> forall n :: n in r.value ==> Key(n.noteID) in keys
    ensures r.Ok? && KeysMatch(st) && LexOrder.StrictlySorted(keys) ==>
      forall i, j :: 0 <= i < j < |r.value| ==> LexOrder.Less(Key(r.value[i].noteID), Key(r.value[j].noteID))
    decreases |keys|
  {
    if |keys| == 0 then Ok([])
    else
      var rest := Collect(st, caller, keys[1..]);
      if keys[0] == CounterKey then rest
      else match DecodeNote(st[keys[0]])
        case None => Err(CorruptEntry(keys[0]))
        case Some(n) =>
          match rest
          case Err(e) => Err(e)
          case Ok(ns) => Ok(if n.owner == caller then [n] + ns else ns)
  }

  /**
    `GetAllNotes`: every stored note the caller owns, in the order the full range query
    visits their keys (ascending key text, so "10" comes before "2"); never the counter.
  */
  function GetAllNotes(st: State, caller: string): (r: Result<seq<Note>, Error>)
    ensures Wf(st) ==> r.Ok?
    ensures r.Ok? ==> forall n :: n in r.value <==>
      (exists k :: k in st && k != CounterKey && DecodeNote(st[k]) == Some(n) && n.owner == caller)
    ensures r.Ok? && KeysMatch(st) ==>
      forall i, j :: 0 <= i < j < |r.value| ==> LexOrder.Less(Key(r.value[i].noteID), Key(r.value[j].noteID))
  {
    var keys := LexOrder.SortedKeys(st.Keys);
    Collect(st, caller, keys)
  }
}

=== FILE: decimal.dfy ===
/**
  Decimal text of integers: Go's `fmt.Sprintf("%d", i)`, which the chaincode uses to
  turn a note ID into a ledger key, and the signed-decimal reading that turns such text
  back into an integer (Go's `strconv.Atoi` for transaction arguments, JavaScript's
  `parseInt(s, 10)` on the contract's reply).
*/
module Decimal {
  import opened Results

  predicate IsDigit(c: char) {
    '0' <= c <= '9'
  }

  predicate AllDigits(s: string) {
    forall i :: 0 <= i < |s| ==> IsDigit(s[i])
  }

  function DigitChar(d: nat): (c: char)
    requires d < 10
    ensures IsDigit(c)
  {
    ('0' as int + d) as char
  }

  function DigitValue(c: char): (d: nat)
    requires IsDigit(c)
    ensures d < 10
  {
    c as int - '0' as int
  }

  /** Decimal digits of a natural number, most significant first, without leading zeros. */
  function NatDigits(n: nat): (s: string)
    ensures |s| >= 1 && AllDigits(s)
    ensures |s| > 1 ==> s[0] != '0'
    decreases n
  {
    if n < 10 then [DigitChar(n)] else NatDigits(n / 10) + [DigitChar(n % 10)]
  }

  /** `fmt.Sprintf("%d", i)`: a minus sign for negative numbers, then the digits. */
  function Format(i: int): string {
    if i < 0 then "-" + NatDigits(-i) else NatDigits(i)
  }

  /** The number a digit string denotes. */
  function DigitsValue(s: string): nat
    requires AllDigits(s)
  {
    if |s| == 0 then 0 else DigitsValue(s[..|s| - 1]) * 10 + DigitValue(s[|s| - 1])
  }

  /**
    An optional sign followed by at least one decimal digit and nothing else, as
    `strconv.Atoi` accepts it (the 64-bit range check is left to the caller).
  */
  function Parse(s: string): Option<int> {
    if |s| > 0 && (s[0] == '+' || s[0] == '-') then
      var body := s[1..];
      if |body| > 0 && AllDigits(body) then
        var magnitude: int := DigitsValue(body);
        Some(if s[0] == '-' then -magnitude else magnitude)
      else None
    else if |s| > 0 && AllDigits(s) then Some(DigitsValue(s) as int)
    else None
  }

  /** The longest prefix of `s` made of decimal digits. */
  function LeadingDigits(s: string): (r: string)
    ensures AllDigits(r) && r <= s
    ensures |r| < |s| ==> !IsDigit(s[|r|])
    decreases |s|
  {
    if |s| > 0 && IsDigit(s[0]) then [s[0]] + LeadingDigits(s[1..]) else ""
  }

  /**
    JavaScript's `parseInt(s, 10)` on text without leading white space: an optional
    sign and the digits right after it, ignoring whatever follows them. `None` is `NaN`,
    when no digit follows the sign.
  */
  function ParseLeading(s: string): Option<int> {
    var signed := |s| > 0 && (s[0] == '+' || s[0] == '-');
    var digits := LeadingDigits(if signed then s[1..] else s);
    if |digits| == 0 then None
    else
      var magnitude: int := DigitsValue(digits);
      Some(if signed && s[0] == '-' then -magnitude else magnitude)
  }

  lemma {:induction false} NatDigitsRoundTrip(n: nat)
    ensures DigitsValue(NatDigits(n)) == n
    decreases n
  {
    if n >= 10 {
      var s := NatDigits(n);
      NatDigitsRoundTrip(n / 10);
      assert s[..|s| - 1] == NatDigits(n / 10);
    }
  }

  /** Reading back what `Format` wrote gives the original integer. */
  lemma FormatRoundTrip(i: int)
    ensures Parse(Format(i)) == Some(i)
  {
    if i < 0 {
      ParseNegative(-i);
    } else {
      NatDigitsRoundTrip(i);
    }
  }

  lemma ParseNegative(n: nat)
    requires n > 0
    ensures Parse("-" + NatDigits(n)) == Some(-(n as int))
  {
    var s := "-" + NatDigits(n);
    assert s[0] == '-' && s[1..] == NatDigits(n);
    NatDigitsRoundTrip(n);
  }

  /** Distinct note IDs get distinct keys. */
  lemma FormatInjective(i: int, j: int)
    ensures Format(i) == Format(j) <==> i == j
  {
    if Format(i) == Format(j) {
      FormatRoundTrip(i);
      FormatRoundTrip(j);
    }
  }

  /** Every formatted integer starts with a digit or a minus sign. */
  lemma FormatHead(i: int)
    ensures |Format(i)| >= 1
    ensures IsDigit(Format(i)[0]) || Format(i)[0] == '-'
  {
  }

  /** `FormatRoundTrip` for every integer at once, for use inside a function body. */
  lemma ParseFormatted(text: string)
    ensures forall i :: text == Format(i) ==> Parse(text) == Some(i)
  {
    forall i | text == Format(i)
      ensures Parse(text) == Some(i)
    {
      FormatRoundTrip(i);
    }
  }

  lemma {:induction false} LeadingDigitsOf(a: string, b: string)
    requires AllDigits(a) && (|b| == 0 || !IsDigit(b[0]))
    ensures LeadingDigits(a + b) == a
    decreases |a|
  {
    if |a| == 0 {
      assert a + b == b;
    } else {
      assert (a + b)[0] == a[0] && (a + b)[1..] == a[1..] + b;
      LeadingDigitsOf(a[1..], b);
      assert a == [a[0]] + a[1..];
    }
  }

  /** `parseInt` stops at the first character that is not a digit. */
  lemma ParseLeadingStops(n: nat, rest: string)
    requires |rest| == 0 || !IsDigit(rest[0])
    ensures ParseLeading(NatDigits(n) + rest) == Some(n)
  {
    var s := NatDigits(n) + rest;
    assert s[0] == NatDigits(n)[0];
    LeadingDigitsOf(NatDigits(n), rest);
    NatDigitsRoundTrip(n);
  }

  /** `parseInt` reads the `%d` text of any integer back as that integer. */
  lemma ParseLeadingFormat(i: int)
    ensures ParseLeading(Format(i)) == Some(i)
  {
    if i < 0 {
      ParseLeadingNegative(i);
    } else {
      ParseLeadingNatural(i);
    }
  }

  lemma ParseLeadingNatural(i: int)
    requires i >= 0
    ensures ParseLeading(Format(i)) == Some(i)
  {
    var s := NatDigits(i);
    assert Format(i) == s;
    assert s + "" == s;
    ParseLeadingStops(i, "");
  }

  lemma ParseLeadingNegative(i: int)
    requires i < 0
    ensures ParseLeading(Format(i)) == Some(i)
  {
    var digits := NatDigits(-i);
    var s := Format(i);
    assert s == "-" + digits;
    assert s[0] == '-';
    assert s[1..] == digits + "";
    LeadingDigitsOf(digits, "");
    assert LeadingDigits(s[1..]) == digits;
    NatDigitsRoundTrip(-i);
    var magnitude: int := DigitsValue(digits);
    assert magnitude == -i;
    assert ParseLeading(s) == Some(-magnitude);
  }
}

=== FILE: frontend.dfy ===
/**
  The browser's note list (the `UserContext` provider): fetching the list, and the
  optimistic create and update, which change the list before the server answers and
  settle or undo the change once it does. Each handler is modelled as one sequential
  run from the state before it to the state after the server's answer; the server's
  answer and `Date.now()` are parameters.
*/
module Frontend {
  import opened Results
  import JsText

  /** A note as the browser holds it: fetched notes carry their owner, an optimistic one does not. */
  datatype ViewNote = ViewNote(noteID: int, owner: Option<string>, title: string, content: string)

  /** The provider's `notes`, `loading` and `error` state. */
  datatype View = View(notes: seq<ViewNote>, loading: bool, error: string)

  const FetchFailed: string := "Failed to fetch notes. Please try again."
  const CreateFailed: string := "Failed to create note."
  const UpdateFailed: string := "Error updating note."

  /** The list endpoint's answer: a JSON array, any other JSON value (the "no notes" message), or a failed request. */
  datatype FetchReply = ArrayData(items: seq<ViewNote>) | OtherData | FetchError

  /** The create endpoint's answer: the server's note ID, or a failed request. */
  datatype CreateReply = CreateOk(noteID: int) | CreateError

  predicate HasId(notes: seq<ViewNote>, id: int) {
    exists i :: 0 <= i < |notes| && notes[i].noteID == id
  }

  /** `fetchNotes(org)`. */
  function FetchNotes(v: View, org: string, reply: FetchReply): (r: View)
    ensures org == "" ==> r == v
    ensures org != "" ==> !r.loading
    ensures org != "" && reply.ArrayData? ==> r.notes == reply.items && r.error == ""
    ensures org != "" && reply.OtherData? ==> r.notes == [] && r.error == ""
    ensures org != "" && reply.FetchError? ==> r.notes == v.notes && r.error == FetchFailed
  {
    if org == "" then v
    else match reply
      case ArrayData(items) => View(items, false, "")
      case OtherData => View([], false, "")
      case FetchError => View(v.notes, false, FetchFailed)
  }

  /** The optimistic insert: the new note, under its temporary ID, at the end of the list. */
  function AppendPending(notes: seq<ViewNote>, tempId: int, title: string, content: string): (r: seq<ViewNote>)
    ensures |r| == |notes| + 1 && r[..|notes|] == notes
    ensures r[|notes|] == ViewNote(tempId, None, title, content)
  {
    notes + [ViewNote(tempId, None, title, content)]
  }

  /** On success: notes carrying the temporary ID take the server's ID; nothing else changes. */
  function ConfirmId(notes: seq<ViewNote>, tempId: int, serverId: int): (r: seq<ViewNote>)
    ensures |r| == |notes|
    ensures forall i :: 0 <= i < |notes| && notes[i].noteID != tempId ==> r[i] == notes[i]
    ensures forall i :: 0 <= i < |notes| && notes[i].noteID == tempId ==> r[i] == notes[i].(noteID := serverId)
    decreases |notes|
  {
    if |notes| == 0 then []
    else
      var head := if notes[0].noteID == tempId then notes[0].(noteID := serverId) else notes[0];
      [head] + ConfirmId(notes[1..], tempId, serverId)
  }

  /** On failure: every note carrying the temporary ID is filtered out, the rest keep their order. */
  function DropId(notes: seq<ViewNote>, tempId: int): (r: seq<ViewNote>)
    ensures |r| <= |notes|
    ensures !HasId(notes, tempId) ==> r == notes
    decreases |notes|
  {
    if |notes| == 0 then []
    else
      var rest := DropId(notes[1..], tempId);
      assert forall j :: 0 <= j < |notes[1..]| ==> notes[1..][j] == notes[j + 1];
      assert notes == [notes[0]] + notes[1..];
      if notes[0].noteID == tempId then rest else [notes[0]] + rest
  }

  /** `createNote(org, title, content)` with `Date.now()` = `now`, settled by the server's `reply`. */
  function CreateNote(v: View, org: string, title: string, content: string, now: int, reply: CreateReply): (r: View)
    ensures org == "" || JsText.IsBlank(title) || JsText.IsBlank(content) ==> r == v
    ensures !(org == "" || JsText.IsBlank(title) || JsText.IsBlank(content)) ==>
      && !r.loading
      && (reply.CreateOk? ==> r.error == "")
      && (reply.CreateError? ==> r.error == CreateFailed)
  {
    if org == "" || JsText.IsBlank(title) || JsText.IsBlank(content) then v
    else
      var pending := AppendPending(v.notes, now, title, content);
      match reply
      case CreateOk(serverId) => View(ConfirmId(pending, now, serverId), false, "")
      case CreateError => View(DropId(pending, now), false, CreateFailed)
  }

  /** The optimistic edit: notes with the matching ID get the new title and content, in place. */
  function EditNotes(notes: seq<ViewNote>, noteID: int, title: string, content: string): (r: seq<ViewNote>)
    ensures |r| == |notes|
    ensures forall i :: 0 <= i < |notes| ==>
      && r[i].noteID == notes[i].noteID && r[i].owner == notes[i].owner
      && (notes[i].noteID != noteID ==> r[i] == notes[i])
      && (notes[i].noteID == noteID ==> r[i].title == title && r[i].content == content)
    decreases |notes|
  {
    if |notes| == 0 then []
    else
      var head := if notes[0].noteID == noteID then notes[0].(title := title, content := content) else notes[0];
      [head] + EditNotes(notes[1..], noteID, title, content)
  }

  /**
    `updateNote(noteID, title, content, org)`, settled by whether the request
    succeeded. The organization only travels with the request, so it is not a
    parameter here.
  */
  function UpdateNote(v: View, noteID: int, title: string, content: string, ok: bool): (r: View)
    ensures noteID == 0 || JsText.IsBlank(title) || JsText.IsBlank(content) ==> r == v
    ensures !(noteID == 0 || JsText.IsBlank(title) || JsText.IsBlank(content)) ==>
      && !r.loading
      && (ok ==> r.error == "" && |r.notes| == |v.notes|)
      && (ok ==> forall i :: 0 <= i < |v.notes| ==>
            && r.notes[i].noteID == v.notes[i].noteID && r.notes[i].owner == v.notes[i].owner
            && (v.notes[i].noteID != noteID ==> r.notes[i] == v.notes[i])
            && (v.notes[i].noteID == noteID ==> r.notes[i].title == title && r.notes[i].content == content))
      && (!ok ==> r.error == UpdateFailed && r.notes == v.notes)
  {
    if noteID == 0 || JsText.IsBlank(title) || JsText.IsBlank(content) then v
    else
      var snapshot := v.notes;
      var edited := EditNotes(v.notes, noteID, title, content);
      if ok then View(edited, false, "") else View(snapshot, false, UpdateFailed)
  }

  /** Undoing the optimistic insert gives back the list from before it, when the temporary ID was new. */
  lemma DropUndoesAppend(notes: seq<ViewNote>, tempId: int, title: string, content: string)
    requires !HasId(notes, tempId)
    ensures DropId(AppendPending(notes, tempId, title, content), tempId) == notes
  {
    DropTail(notes, ViewNote(tempId, None, title, content), tempId);
  }

  lemma {:induction false} DropTail(notes: seq<ViewNote>, last: ViewNote, tempId: int)
    requires !HasId(notes, tempId) && last.noteID == tempId
    ensures DropId(notes + [last], tempId) == notes
    decreases |notes|
  {
    var all := notes + [last];
    if |notes| == 0 {
      assert all[1..] == [];
      assert DropId(all, tempId) == DropId([], tempId);
    } else {
      var tail := notes[1..];
      assert all[0] == notes[0] && all[1..] == tail + [last];
      assert notes[0].noteID != tempId;
      assert !HasId(tail, tempId) by {
        assert forall j :: 0 <= j < |tail| ==> tail[j] == notes[j + 1];
      }
      DropTail(tail, last, tempId);
      assert DropId(all, tempId) == [notes[0]] + DropId(tail + [last], tempId);
      assert notes == [notes[0]] + tail;
    }
  }

  /**
    Confirming the optimistic insert gives the list from before it with the new note,
    under the server's ID, at the end, when the temporary ID was new.
  */
  lemma ConfirmSettlesAppend(notes: seq<ViewNote>, tempId: int, serverId: int, title: string, content: string)
    requires !HasId(notes, tempId)
    ensures ConfirmId(AppendPending(notes, tempId, title, content), tempId, serverId) ==
      notes + [ViewNote(serverId, None, title, content)]
  {
    var p := AppendPending(notes, tempId, title, content);
    var r := ConfirmId(p, tempId, serverId);
    forall i | 0 <= i < |notes|
      ensures r[i] == notes[i]
    {
      assert p[i] == notes[i];
    }
  }

  /**
    A create whose temporary ID is new ends with the old list plus the new note under
    the server's ID, or with the old list unchanged when the server fails.
  */
  lemma CreateOutcome(v: View, org: string, title: string, content: string, now: int, reply: CreateReply)
    requires org != "" && !JsText.IsBlank(title) && !JsText.IsBlank(content)
    requires !HasId(v.notes, now)
    ensures reply.CreateOk? ==>
      CreateNote(v, org, title, content, now, reply).notes == v.notes + [ViewNote(reply.noteID, None, title, content)]
    ensures reply.CreateError? ==> CreateNote(v, org, title, content, now, reply).notes == v.notes
  {
    match reply
    case CreateOk(serverId) => ConfirmSettlesAppend(v.notes, now, serverId, title, content);
    case CreateError => DropUndoesAppend(v.notes, now, title, content);
  }

  /**
    When the temporary ID collides with a note already listed (two creates in the same
    millisecond), a failed create also drops that earlier note.
  */
  lemma FailedCreateDropsCollidingNote(notes: seq<ViewNote>, tempId: int, title: string, content: string, i: int)
    requires 0 <= i < |notes| && notes[i].noteID == tempId
    ensures notes[i] !in DropId(AppendPending(notes, tempId, title, content), tempId)
    ensures |DropId(AppendPending(notes, tempId, title, content), tempId)| < |notes|
  {
    var p := AppendPending(notes, tempId, title, content);
    assert p[i] == notes[i];
    DropMembers(p, tempId);
    DropShrinksTwice(p, tempId, i, |notes|);
  }

  /**
    The filter keeps exactly the notes whose ID differs from the dropped one, each as
    many times as the list holds it.
  */
  lemma {:induction false} DropMembers(notes: seq<ViewNote>, tempId: int)
    ensures forall n :: n in DropId(notes, tempId) <==> n in notes && n.noteID != tempId
    ensures forall n :: multiset(DropId(notes, tempId))[n] == if n.noteID == tempId then 0 else multiset(notes)[n]
    decreases |notes|
  {
    if |notes| > 0 {
      DropMembers(notes[1..], tempId);
      assert notes == [notes[0]] + notes[1..];
      assert multiset(notes) == multiset([notes[0]]) + multiset(notes[1..]);
    }
  }

  /**
    The filter works note by note: dropping from a concatenation is dropping from each
    part, in order.
  */
  lemma {:induction false} DropDistributes(xs: seq<ViewNote>, ys: seq<ViewNote>, tempId: int)
    ensures DropId(xs + ys, tempId) == DropId(xs, tempId) + DropId(ys, tempId)
    decreases |xs|
  {
    if |xs| == 0 {
      assert xs + ys == ys;
    } else {
      var all := xs + ys;
      assert all[0] == xs[0];
      assert all[1..] == xs[1..] + ys;
      DropDistributes(xs[1..], ys, tempId);
      var head := if xs[0].noteID == tempId then [] else [xs[0]];
      assert DropId(all, tempId) == head + DropId(xs[1..] + ys, tempId);
      assert DropId(xs, tempId) == head + DropId(xs[1..], tempId);
    }
  }

  /** A single note is kept exactly when its ID differs from the dropped one. */
  lemma DropSingle(n: ViewNote, tempId: int)
    ensures DropId([n], tempId) == if n.noteID == tempId then [] else [n]
  {
    assert [n][1..] == [];
  }

  /** Each note carrying the dropped ID shortens the result by one. */
  lemma {:induction false} DropShrinks(notes: seq<ViewNote>, tempId: int, i: int)
    requires 0 <= i < |notes| && notes[i].noteID == tempId
    ensures |DropId(notes, tempId)| < |notes|
    decreases |notes|
  {
    if i > 0 {
      DropShrinks(notes[1..], tempId, i - 1);
    }
  }

  lemma {:induction false} DropShrinksTwice(notes: seq<ViewNote>, tempId: int, i: int, j: int)
    requires 0 <= i < j < |notes| && notes[i].noteID == tempId && notes[j].noteID == tempId
    ensures |DropId(notes, tempId)| < |notes| - 1
    decreases |notes|
  {
    if i > 0 {
      DropShrinksTwice(notes[1..], tempId, i - 1, j - 1);
    } else {
      DropShrinks(notes[1..], tempId, j - 1);
    }
  }
}

=== FILE: frontend_facts.dfy ===
/**
  The browser's list refresh against the REST layer: what `fetchNotes` shows once the
  `getAllNotes` route has answered.
*/
module FrontendFacts {
  import opened Results
  import opened Chaincode
  import opened Backend
  import BackendFacts
  import Frontend

  /** A note as the browser receives it in a JSON array. */
  function ToView(n: Note): Frontend.ViewNote {
    Frontend.ViewNote(n.noteID, Some(n.owner), n.title, n.content)
  }

  function ToViews(ns: seq<Note>): (ws: seq<Frontend.ViewNote>)
    ensures |ws| == |ns| && forall i :: 0 <= i < |ns| ==> ws[i] == ToView(ns[i])
  {
    seq(|ns|, i requires 0 <= i < |ns| => ToView(ns[i]))
  }

  /**
    What axios hands `fetchNotes` for a route answer: a 2xx JSON array, another 2xx JSON
    value, or a rejected request for any other status.
  */
  function Delivered(r: Response): Frontend.FetchReply {
    if 200 <= r.status < 300 && r.body.NoteList? then Frontend.ArrayData(ToViews(r.body.notes))
    else if 200 <= r.status < 300 then Frontend.OtherData
    else Frontend.FetchError
  }

  lemma ToViewsMembers(ns: seq<Note>, n: Note)
    ensures ToView(n) in ToViews(ns) <==> n in ns
  {
    if ToView(n) in ToViews(ns) {
      var i :| 0 <= i < |ns| && ToViews(ns)[i] == ToView(n);
      assert ns[i] == n;
    }
    if n in ns {
      var i :| 0 <= i < |ns| && ns[i] == n;
      assert ToViews(ns)[i] == ToView(n);
    }
  }

  /**
    For a known organization and a readable ledger, a refresh clears the error and shows
    exactly the caller's stored notes, in strictly ascending ID order; the list is empty
    exactly when the caller owns no note.
  */
  lemma FetchShowsListing(v: Frontend.View, st: State, ids: Identities, org: string)
    requires Wf(st) && (org == "org1" || org == "org2")
    ensures var caller := GetContract(ids, Some(org)).value;
      var w := Frontend.FetchNotes(v, org, Delivered(GetAllNotesRoute(st, ids, Some(org))));
      && w.error == "" && !w.loading
      && (forall i, j :: 0 <= i < j < |w.notes| ==> w.notes[i].noteID < w.notes[j].noteID)
      && (forall n: Note :: ToView(n) in w.notes <==>
            Key(n.noteID) in st && st[Key(n.noteID)] == NoteEntry(n) && n.owner == caller)
      && (|w.notes| == 0 <==> forall k :: k in st && k != CounterKey ==> st[k].note.owner != caller)
  {
    var caller := GetContract(ids, Some(org)).value;
    var r := GetAllNotesRoute(st, ids, Some(org));
    var w := Frontend.FetchNotes(v, org, Delivered(r));
    BackendFacts.ListingIsNumericallySorted(st, ids, org);
    if r.body.Message? {
      assert w.notes == [];
      forall n: Note
        ensures !(Key(n.noteID) in st && st[Key(n.noteID)] == NoteEntry(n) && n.owner == caller)
      {
        KeyIsNotCounter(n.noteID);
      }
    } else {
      assert w.notes == ToViews(r.body.notes);
      forall n: Note
        ensures ToView(n) in w.notes <==> n in r.body.notes
      {
        ToViewsMembers(r.body.notes, n);
      }
      assert r.body.notes[0] in r.body.notes;
      var n0 := r.body.notes[0];
      KeyIsNotCounter(n0.noteID);
      assert Key(n0.noteID) in st && st[Key(n0.noteID)].note.owner == caller;
    }
  }

  /** A refresh for an organization the server does not know keeps the list and shows the fetch error. */
  lemma FetchUnknownOrganization(v: Frontend.View, st: State, ids: Identities, org: string)
    requires org != "" && org != "org1" && org != "org2"
    ensures var w := Frontend.FetchNotes(v, org, Delivered(GetAllNotesRoute(st, ids, Some(org))));
      w.notes == v.notes && w.error == Frontend.FetchFailed && !w.loading
  {
  }
}

=== FILE: js_text.dfy ===
/**
  JavaScript's `String.prototype.trim`, which the browser uses to refuse blank titles
  and contents: it strips the characters ECMAScript counts as white space or line
  terminators from both ends.
*/
module JsText {

  /** ECMAScript WhiteSpace (TAB, VT, FF, SP, NBSP, ZWNBSP, category Zs) and LineTerminator. */
  predicate IsSpace(c: char) {
    || c == '\t' || c == '\n' || c == '\U{B}' || c == '\U{C}' || c == '\r' || c == ' '
    || c == '\U{A0}' || c == '\U{1680}' || ('\U{2000}' <= c <= '\U{200A}')
    || c == '\U{2028}' || c == '\U{2029}' || c == '\U{202F}' || c == '\U{205F}'
    || c == '\U{3000}' || c == '\U{FEFF}'
  }

  predicate AllSpace(s: string) {
    forall i :: 0 <= i < |s| ==> IsSpace(s[i])
  }

  /** `s` without its leading white space. */
  function TrimStart(s: string): (r: string)
    ensures |r| <= |s| && r == s[|s| - |r|..]
    ensures AllSpace(s[..|s| - |r|])
    ensures |r| > 0 ==> !IsSpace(r[0])
    decreases |s|
  {
    if |s| > 0 && IsSpace(s[0]) then TrimStart(s[1..]) else s
  }

  /** `s` without its trailing white space. */
  function TrimEnd(s: string): (r: string)
    ensures |r| <= |s| && r == s[..|r|]
    ensures AllSpace(s[|r|..])
    ensures |r| > 0 ==> !IsSpace(r[|r| - 1])
    decreases |s|
  {
    if |s| > 0 && IsSpace(s[|s| - 1]) then TrimEnd(s[..|s| - 1]) else s
  }

  function Trim(s: string): string {
    TrimEnd(TrimStart(s))
  }

  /** `!s.trim()`: the string trims to nothing. */
  predicate IsBlank(s: string) {
    Trim(s) == ""
  }

  lemma AllSpaceConcat(a: string, b: string)
    requires AllSpace(a) && AllSpace(b)
    ensures AllSpace(a + b)
  {
    forall i | 0 <= i < |a + b|
      ensures IsSpace((a + b)[i])
    {
      if i < |a| {
        assert (a + b)[i] == a[i];
      } else {
        assert (a + b)[i] == b[i - |a|];
      }
    }
  }

  /** A string is blank exactly when every character of it is white space. */
  lemma BlankIffAllSpace(s: string)
    ensures IsBlank(s) <==> AllSpace(s)
  {
    var a := TrimStart(s);
    if IsBlank(s) {
      assert a[0..] == a;
      AllSpaceConcat(s[..|s| - |a|], a);
      assert s == s[..|s| - |a|] + a;
    }
    if AllSpace(s) {
      assert |a| == 0;
    }
  }

  /** The trimmed text is a slice of the original with nothing but white space cut from either end. */
  lemma TrimIsSlice(s: string)
    ensures exists i, j :: 0 <= i <= j <= |s| && Trim(s) == s[i..j] && AllSpace(s[..i]) && AllSpace(s[j..])
  {
    var a := TrimStart(s);
    var i := |s| - |a|;
    var j := i + |Trim(s)|;
    assert Trim(s) == a[..|Trim(s)|] == s[i..j];
    assert s[j..] == a[|Trim(s)|..];
  }
}

=== FILE: ledger.dfy ===
/**
  Transactions of the note contract as one dispatcher, the invariants they keep, and
  what sequences of them do to note IDs: without a counter reset, IDs handed out
  strictly increase and a create never lands on an existing note; after a reset the
  next create reuses ID 1.
*/
module Ledger {
  import opened Results
  import opened Chaincode

  datatype Tx =
    | CreateNoteTx(title: string, content: string)
    | ReadNoteTx(noteID: int)
    | UpdateNoteTx(noteID: int, title: string, content: string)
    | DeleteNoteTx(noteID: int)
    | GetAllNotesTx
    | ResetNoteCounterTx
    | GetNoteCounterTx

  /** What a transaction returns to its client. */
  datatype Value = NewId(id: int) | OneNote(note: Note) | Notes(notes: seq<Note>) | Count(count: int) | Done

  predicate IsQuery(tx: Tx) {
    tx.ReadNoteTx? || tx.GetAllNotesTx? || tx.GetNoteCounterTx?
  }

  /** One transaction by `caller`; a failed one is not committed. */
  function Execute(st: State, caller: string, tx: Tx): (r: Reply<Value>)
    ensures r.result.Err? ==> r.state == st
    ensures IsQuery(tx) ==> r.state == st
    ensures tx.CreateNoteTx? ==>
      var c := CreateNote(st, caller, tx.title, tx.content);
      && r.state == c.state
      && (r.result.Ok? <==> c.result.Ok?)
      && (r.result.Ok? ==> r.result.value == NewId(c.result.value))
  {
    match tx
    case CreateNoteTx(title, content) =>
      var c := CreateNote(st, caller, title, content);
      Reply(c.state, match c.result case Ok(id) => Ok(NewId(id)) case Err(e) => Err(e))
    case ReadNoteTx(id) =>
      Reply(st, match ReadNote(st, caller, id) case Ok(n) => Ok(OneNote(n)) case Err(e) => Err(e))
    case UpdateNoteTx(id, title, content) =>
      var u := UpdateNote(st, caller, id, title, content);
      Reply(u.state, match u.result case Ok(_) => Ok(Done) case Err(e) => Err(e))
    case DeleteNoteTx(id) =>
      var d := DeleteNote(st, caller, id);
      Reply(d.state, match d.result case Ok(_) => Ok(Done) case Err(e) => Err(e))
    case GetAllNotesTx =>
      Reply(st, match GetAllNotes(st, caller) case Ok(ns) => Ok(Notes(ns)) case Err(e) => Err(e))
    case ResetNoteCounterTx =>
      Reply(ResetNoteCounter(st).state, Ok(Done))
    case GetNoteCounterTx =>
      Reply(st, match GetNoteCounter(st) case Ok(c) => Ok(Count(c)) case Err(e) => Err(e))
  }

  /** Every transaction, the reset included, keeps the state readable. */
  lemma ExecutePreservesWf(st: State, caller: string, tx: Tx)
    requires Wf(st)
    ensures Wf(Execute(st, caller, tx).state)
  {
    var st' := Execute(st, caller, tx).state;
    match tx
    case CreateNoteTx(title, content) =>
      var id := CreateNote(st, caller, title, content).result.value;
      KeyIsNotCounter(id);
      assert forall k :: k in st' && k != CounterKey && k != Key(id) ==> st'[k] == st[k];
    case UpdateNoteTx(id, title, content) =>
      if Execute(st, caller, tx).result.Ok? {
        assert forall k :: k in st' && k != Key(id) ==> st'[k] == st[k];
      }
    case _ =>
  }

  /**
    In a readable state the only ways a transaction can fail are the missing note and
    the foreign note: the contract's unmarshal failures cannot happen.
  */
  lemma WfFailuresAreAuthorization(st: State, caller: string, tx: Tx)
    requires Wf(st)
    ensures var r := Execute(st, caller, tx);
      r.result.Err? ==> r.result.error.NoteNotFound? || r.result.error.AccessDenied?
    ensures tx.CreateNoteTx? || tx.GetAllNotesTx? || tx.ResetNoteCounterTx? || tx.GetNoteCounterTx? ==>
      Execute(st, caller, tx).result.Ok?
  {
    match tx
    case ReadNoteTx(id) => WfNoteDecodes(st, id);
    case UpdateNoteTx(id, _, _) => WfNoteDecodes(st, id);
    case DeleteNoteTx(id) => WfNoteDecodes(st, id);
    case _ =>
  }

  lemma WfNoteDecodes(st: State, id: int)
    requires Wf(st)
    ensures Key(id) in st ==> DecodeNote(st[Key(id)]).Some? && st[Key(id)].note.noteID == id
  {
    KeyIsNotCounter(id);
    if Key(id) in st {
      KeyInjective(id, st[Key(id)].note.noteID);
    }
  }

  /** After the owner deletes a note, reading its ID fails with "does not exist", for anyone. */
  lemma ReadAfterDelete(st: State, owner: string, reader: string, id: int)
    requires DeleteNote(st, owner, id).result.Ok?
    ensures ReadNote(DeleteNote(st, owner, id).state, reader, id) == Err(NoteNotFound(id))
  {
  }

  /** After the owner updates a note, reading it returns the new title and content under the same ID and owner. */
  lemma ReadAfterUpdate(st: State, owner: string, id: int, title: string, content: string)
    requires Wf(st)
    requires UpdateNote(st, owner, id, title, content).result.Ok?
    ensures ReadNote(UpdateNote(st, owner, id, title, content).state, owner, id) == Ok(Note(id, owner, title, content))
  {
    WfNoteDecodes(st, id);
  }

  /** Notes other than `Key(id)`, and anybody's view of them, are untouched by an update or delete of `id`. */
  lemma OthersUnaffected(st: State, caller: string, reader: string, id: int, other: int, title: string, content: string)
    requires other != id
    ensures ReadNote(UpdateNote(st, caller, id, title, content).state, reader, other) == ReadNote(st, reader, other)
    ensures ReadNote(DeleteNote(st, caller, id).state, reader, other) == ReadNote(st, reader, other)
  {
    KeyInjective(id, other);
  }

  /** The counter value, which a readable state always has. */
  function Counter(st: State): int
    requires Wf(st)
  {
    GetNoteCounter(st).value
  }

  /** Every stored note's ID lies between 1 and the counter: the next ID is fresh. */
  predicate Dominated(st: State) {
    && Wf(st)
    && GetNoteCounter(st).value >= 0
    && forall k :: k in st && k != CounterKey ==> 1 <= st[k].note.noteID <= GetNoteCounter(st).value
  }

  /**
    Below the wrap-around point, a create in a dominated state returns the counter plus
    one, a key no note occupies, and keeps the state dominated.
  */
  lemma CreateIsFresh(st: State, caller: string, title: string, content: string)
    requires Dominated(st) && Counter(st) < MaxInt64
    ensures var r := CreateNote(st, caller, title, content);
      && r.result == Ok(Counter(st) + 1)
      && Key(Counter(st) + 1) !in st
      && (forall k :: k in st && k != CounterKey ==> st[k].note.noteID < r.result.value)
      && Dominated(r.state)
  {
    var id := Counter(st) + 1;
    if Key(id) in st {
      WfNoteDecodes(st, id);
    }
    ExecutePreservesWf(st, caller, CreateNoteTx(title, content));
    var st' := CreateNote(st, caller, title, content).state;
    KeyIsNotCounter(id);
    assert GetNoteCounter(st') == Ok(id);
    forall k | k in st' && k != CounterKey
      ensures 1 <= st'[k].note.noteID <= id
    {
      if k != Key(id) {
        assert k in st;
        assert st'[k] == st[k];
      } else {
        assert st'[k] == NoteEntry(Note(id, caller, title, content));
      }
    }
  }

  /**
    One step other than a reset, below the wrap-around point: the counter stays or
    advances by one, only a create advances it, and the state stays dominated.
  */
  lemma StepKeepsDominated(st: State, caller: string, tx: Tx)
    requires Dominated(st) && Counter(st) < MaxInt64 && !tx.ResetNoteCounterTx?
    ensures var r := Execute(st, caller, tx);
      && Dominated(r.state)
      && (Counter(r.state) == Counter(st) || Counter(r.state) == Counter(st) + 1)
      && (r.result.Ok? && r.result.value.NewId? ==>
            r.result.value.id == Counter(st) + 1 == Counter(r.state) && Key(r.result.value.id) !in st)
      && (!(r.result.Ok? && r.result.value.NewId?) ==> Counter(r.state) == Counter(st))
  {
    ExecutePreservesWf(st, caller, tx);
    match tx
    case CreateNoteTx(title, content) =>
      CreateIsFresh(st, caller, title, content);
    case UpdateNoteTx(id, title, content) =>
      var st' := Execute(st, caller, tx).state;
      if Execute(st, caller, tx).result.Ok? {
        assert forall k :: k in st' && k != Key(id) ==> st'[k] == st[k];
        KeyIsNotCounter(id);
      }
    case DeleteNoteTx(id) =>
      KeyIsNotCounter(id);
    case _ =>
  }

  /**
    A counter reset makes the next create reuse ID 1 and overwrite key "1", whoever
    owned the note stored there.
  */
  lemma ResetThenCreateOverwrites(st: State, caller: string, title: string, content: string)
    requires Wf(st)
    ensures var r := CreateNote(ResetNoteCounter(st).state, caller, title, content);
      && r.result == Ok(1)
      && r.state[Key(1)] == NoteEntry(Note(1, caller, title, content))
      && (Key(1) in st && st[Key(1)].note.owner != caller ==> r.state[Key(1)] != st[Key(1)])
  {
  }

  datatype Step = Step(caller: string, tx: Tx)

  /** The state after a run of transactions and each transaction's result, in order. */
  datatype Trace = Trace(state: State, results: seq<Result<Value, Error>>)

  function Run(st: State, steps: seq<Step>): (t: Trace)
    ensures |t.results| == |steps|
    decreases |steps|
  {
    if |steps| == 0 then Trace(st, [])
    else
      var r := Execute(st, steps[0].caller, steps[0].tx);
      var rest := Run(r.state, steps[1..]);
      Trace(rest.state, [r.result] + rest.results)
  }

  /** The IDs returned by the successful creates among `results`, in order. */
  function CreatedIds(results: seq<Result<Value, Error>>): seq<int> {
    if |results| == 0 then []
    else
      var head := if results[0].Ok? && results[0].value.NewId? then [results[0].value.id] else [];
      head + CreatedIds(results[1..])
  }

  /** The IDs a run hands out. */
  function RunIds(st: State, steps: seq<Step>): seq<int> {
    CreatedIds(Run(st, steps).results)
  }

  predicate NoReset(steps: seq<Step>) {
    forall i :: 0 <= i < |steps| ==> !steps[i].tx.ResetNoteCounterTx?
  }

  /** Peeling the first step off a run. */
  lemma RunStep(st: State, steps: seq<Step>)
    requires |steps| > 0
    ensures var r := Execute(st, steps[0].caller, steps[0].tx);
      && Run(st, steps).state == Run(r.state, steps[1..]).state
      && RunIds(st, steps) == CreatedIds([r.result]) + RunIds(r.state, steps[1..])
  {
    var r := Execute(st, steps[0].caller, steps[0].tx);
    var rest := Run(r.state, steps[1..]);
    assert ([r.result] + rest.results)[1..] == rest.results;
    assert CreatedIds([r.result])[..] == (if r.result.Ok? && r.result.value.NewId? then [r.result.value.id] else []) by {
      assert [r.result][1..] == [];
    }
  }

  lemma NoResetTail(steps: seq<Step>)
    requires |steps| > 0 && NoReset(steps)
    ensures NoReset(steps[1..]) && !steps[0].tx.ResetNoteCounterTx?
  {
    forall i | 0 <= i < |steps[1..]|
      ensures !steps[1..][i].tx.ResetNoteCounterTx?
    {
      assert steps[1..][i] == steps[i + 1];
    }
  }

  /** A reset-free run below the wrap-around point keeps the state dominated and advances the counter by at most one per step. */
  lemma {:induction false} RunKeepsDominated(st: State, steps: seq<Step>)
    requires Dominated(st) && NoReset(steps)
    requires Counter(st) + |steps| <= MaxInt64
    ensures Dominated(Run(st, steps).state)
    ensures Counter(st) <= Counter(Run(st, steps).state) <= Counter(st) + |steps|
    decreases |steps|
  {
    if |steps| > 0 {
      var r := Execute(st, steps[0].caller, steps[0].tx);
      NoResetTail(steps);
      StepKeepsDominated(st, steps[0].caller, steps[0].tx);
      RunKeepsDominated(r.state, steps[1..]);
      RunStep(st, steps);
    }
  }

  predicate Increasing(ids: seq<int>) {
    forall i, j :: 0 <= i < j < |ids| ==> ids[i] < ids[j]
  }

  predicate Within(ids: seq<int>, lo: int, hi: int) {
    forall i :: 0 <= i < |ids| ==> lo < ids[i] <= hi
  }

  /** Gluing the first step's ID (if any) in front of the rest of a run's IDs. */
  lemma PrependId(head: seq<int>, rest: seq<int>, lo: int, mid: int, hi: int)
    requires |head| <= 1 && lo <= mid <= hi
    requires |head| == 1 ==> head[0] == mid == lo + 1
    requires Increasing(rest) && Within(rest, mid, hi)
    ensures Increasing(head + rest) && Within(head + rest, lo, hi)
  {
    var ids := head + rest;
    forall i | 0 <= i < |ids|
      ensures lo < ids[i] <= hi
    {
      if i >= |head| {
        assert ids[i] == rest[i - |head|];
      }
    }
    forall i, j | 0 <= i < j < |ids|
      ensures ids[i] < ids[j]
    {
      assert ids[j] == rest[j - |head|];
      if i >= |head| {
        assert ids[i] == rest[i - |head|];
      }
    }
  }

  lemma StepHead(st: State, step: Step)
    requires Dominated(st) && Counter(st) < MaxInt64 && !step.tx.ResetNoteCounterTx?
    ensures var r := Execute(st, step.caller, step.tx);
      var head := CreatedIds([r.result]);
      && Dominated(r.state)
      && Counter(st) <= Counter(r.state)
      && |head| <= 1
      && (|head| == 1 ==> head[0] == Counter(r.state) == Counter(st) + 1)
  {
    var r := Execute(st, step.caller, step.tx);
    StepKeepsDominated(st, step.caller, step.tx);
    assert [r.result][1..] == [];
  }

  /**
    A run without counter resets, short enough not to reach the wrap-around point,
    hands out strictly increasing IDs, all above the starting counter and at most the
    final one.
  */
  lemma {:induction false} RunAllocatesIncreasingIds(st: State, steps: seq<Step>)
    requires Dominated(st) && NoReset(steps)
    requires Counter(st) + |steps| <= MaxInt64
    ensures Dominated(Run(st, steps).state)
    ensures Increasing(RunIds(st, steps))
    ensures Within(RunIds(st, steps), Counter(st), Counter(Run(st, steps).state))
    decreases |steps|
  {
    RunKeepsDominated(st, steps);
    if |steps| > 0 {
      var r := Execute(st, steps[0].caller, steps[0].tx);
      NoResetTail(steps);
      StepHead(st, steps[0]);
      RunAllocatesIncreasingIds(r.state, steps[1..]);
      RunKeepsDominated(r.state, steps[1..]);
      RunStep(st, steps);
      PrependId(CreatedIds([r.result]), RunIds(r.state, steps[1..]),
                Counter(st), Counter(r.state), Counter(Run(r.state, steps[1..]).state));
    }
  }

  /** No ID handed out by such a run names a note that was stored when it began. */
  lemma RunNeverOverwrites(st: State, steps: seq<Step>, i: int)
    requires Dominated(st) && NoReset(steps)
    requires Counter(st) + |steps| <= MaxInt64
    requires 0 <= i < |RunIds(st, steps)|
    ensures Key(RunIds(st, steps)[i]) !in st
  {
    RunAllocatesIncreasingIds(st, steps);
    var id := RunIds(st, steps)[i];
    KeyIsNotCounter(id);
    if Key(id) in st {
      WfNoteDecodes(st, id);
    }
  }
}

=== FILE: lex_order.dfy ===
/**
  The order in which the ledger's range query `GetStateByRange("", "")` visits keys:
  ascending lexicographic order of the key text. Go compares keys byte by byte in
  UTF-8, which orders characters exactly as their code points, so the order is stated
  here on characters.
*/
module LexOrder {

  /** `a` sorts strictly before `b`: `a` is a proper prefix of `b`, or wins at the first difference. */
  predicate Less(a: string, b: string)
    decreases |a|
  {
    |b| > 0 && (|a| == 0 || a[0] < b[0] || (a[0] == b[0] && Less(a[1..], b[1..])))
  }

  lemma {:induction false} Irreflexive(a: string)
    ensures !Less(a, a)
    decreases |a|
  {
    if |a| > 0 {
      Irreflexive(a[1..]);
    }
  }

  lemma {:induction false} Transitive(a: string, b: string, c: string)
    requires Less(a, b) && Less(b, c)
    ensures Less(a, c)
    decreases |a|
  {
    if |a| > 0 && a[0] == b[0] && b[0] == c[0] {
      Transitive(a[1..], b[1..], c[1..]);
    }
  }

  lemma {:induction false} Total(a: string, b: string)
    ensures a == b || Less(a, b) || Less(b, a)
    decreases |a|
  {
    if |a| > 0 && |b| > 0 && a[0] == b[0] {
      Total(a[1..], b[1..]);
      if a[1..] == b[1..] {
        assert a == [a[0]] + a[1..] && b == [b[0]] + b[1..];
      }
    }
  }

  lemma Asymmetric(a: string, b: string)
    requires Less(a, b)
    ensures !Less(b, a)
  {
    if Less(b, a) {
      Transitive(a, b, a);
      Irreflexive(a);
    }
  }

  /** `k` is the first key of `keys` in range-query order. */
  predicate IsLeast(k: string, keys: set<string>) {
    k in keys && forall k' :: k' in keys && k' != k ==> Less(k, k')
  }

  lemma {:induction false} LeastExists(keys: set<string>)
    requires keys != {}
    ensures exists k :: IsLeast(k, keys)
    decreases |keys|
  {
    var x :| x in keys;
    var rest := keys - {x};
    if rest == {} {
      assert keys == {x};
      assert IsLeast(x, keys);
    } else {
      LeastExists(rest);
      var m :| IsLeast(m, rest);
      Total(x, m);
      if Less(x, m) {
        forall k' | k' in keys && k' != x
          ensures Less(x, k')
        {
          if k' != m {
            Transitive(x, m, k');
          }
        }
        assert IsLeast(x, keys);
      } else {
        assert IsLeast(m, keys);
      }
    }
  }

  lemma LeastUnique(a: string, b: string, keys: set<string>)
    requires IsLeast(a, keys) && IsLeast(b, keys)
    ensures a == b
  {
    if a != b {
      Asymmetric(a, b);
    }
  }

  function Least(keys: set<string>): (k: string)
    requires keys != {}
    ensures IsLeast(k, keys)
  {
    LeastExists(keys);
    assert forall a, b :: IsLeast(a, keys) && IsLeast(b, keys) ==> a == b by {
      forall a, b | IsLeast(a, keys) && IsLeast(b, keys)
        ensures a == b
      {
        LeastUnique(a, b, keys);
      }
    }
    var k :| IsLeast(k, keys);
    k
  }

  predicate StrictlySorted(s: seq<string>) {
    forall i, j :: 0 <= i < j < |s| ==> Less(s[i], s[j])
  }

  /** The keys of a finite key set in the order a full range query returns them. */
  function SortedKeys(keys: set<string>): (r: seq<string>)
    ensures forall k :: k in r <==> k in keys
    ensures StrictlySorted(r)
    decreases |keys|
  {
    if keys == {} then []
    else
      var m := Least(keys);
      var rest := SortedKeys(keys - {m});
      [m] + rest
  }

  /** Only one strictly sorted sequence lists a given set of keys. */
  lemma {:induction false} SortedUnique(a: seq<string>, b: seq<string>)
    requires StrictlySorted(a) && StrictlySorted(b)
    requires forall k :: k in a <==> k in b
    ensures a == b
    decreases |a|
  {
    assert |a| > 0 ==> a[0] in b;
    assert |b| > 0 ==> b[0] in a;
    if |a| > 0 && |b| > 0 {
      if a[0] != b[0] {
        var ia :| 0 <= ia < |b| && b[ia] == a[0];
        var ib :| 0 <= ib < |a| && a[ib] == b[0];
        assert Less(b[0], a[0]);
        assert Less(a[0], b[0]);
        Asymmetric(a[0], b[0]);
      }
      forall k | k in a[1..]
        ensures k in b[1..]
      {
        var i :| 1 <= i < |a| && a[i] == k;
        assert Less(a[0], k);
        Irreflexive(k);
        assert k in b;
        var j :| 0 <= j < |b| && b[j] == k;
        assert j != 0;
        assert b[1..][j - 1] == k;
      }
      forall k | k in b[1..]
        ensures k in a[1..]
      {
        var i :| 1 <= i < |b| && b[i] == k;
        assert Less(b[0], k);
        Irreflexive(k);
        assert k in a;
        var j :| 0 <= j < |a| && a[j] == k;
        assert j != 0;
        assert a[1..][j - 1] == k;
      }
      SortedUnique(a[1..], b[1..]);
      assert a == [a[0]] + a[1..] && b == [b[0]] + b[1..];
    }
  }
}

=== FILE: note_order.dfy ===
/**
  The REST layer's `notes.sort((a, b) => parseInt(a.noteID) - parseInt(b.noteID))`:
  an ascending sort by note ID, written here as an insertion sort. How notes with equal
  IDs are ordered is not stated: a readable ledger never lists two notes with one ID.
*/
module NoteOrder {
  import opened Chaincode

  predicate SortedById(ns: seq<Note>) {
    forall i, j :: 0 <= i < j < |ns| ==> ns[i].noteID <= ns[j].noteID
  }

  predicate StrictlyById(ns: seq<Note>) {
    forall i, j :: 0 <= i < j < |ns| ==> ns[i].noteID < ns[j].noteID
  }

  predicate DistinctIds(ns: seq<Note>) {
    forall i, j :: 0 <= i < j < |ns| ==> ns[i].noteID != ns[j].noteID
  }

  /** Every note of `ns` has an ID of at least `lo`. */
  predicate AtLeast(ns: seq<Note>, lo: int) {
    forall k :: 0 <= k < |ns| ==> lo <= ns[k].noteID
  }

  /** Puts `n` before the first note whose ID is not smaller, so equal IDs keep their order. */
  function Insert(n: Note, ns: seq<Note>): (r: seq<Note>)
    ensures |r| == |ns| + 1
    decreases |ns|
  {
    if |ns| == 0 || n.noteID <= ns[0].noteID then [n] + ns
    else [ns[0]] + Insert(n, ns[1..])
  }

  /** The notes of `ns` rearranged into ascending ID order. */
  function SortById(ns: seq<Note>): (r: seq<Note>)
    ensures |r| == |ns|
    decreases |ns|
  {
    if |ns| == 0 then [] else Insert(ns[0], SortById(ns[1..]))
  }

  lemma {:induction false} InsertKeeps(n: Note, ns: seq<Note>)
    ensures multiset(Insert(n, ns)) == multiset(ns) + multiset{n}
    ensures forall lo :: AtLeast(ns, lo) && lo <= n.noteID ==> AtLeast(Insert(n, ns), lo)
    decreases |ns|
  {
    if |ns| > 0 && n.noteID > ns[0].noteID {
      InsertKeeps(n, ns[1..]);
      assert ns == [ns[0]] + ns[1..];
      forall lo | AtLeast(ns, lo) && lo <= n.noteID
        ensures AtLeast(Insert(n, ns), lo)
      {
        assert AtLeast(ns[1..], lo);
      }
    }
  }

  lemma {:induction false} InsertSorted(n: Note, ns: seq<Note>)
    requires SortedById(ns)
    ensures SortedById(Insert(n, ns))
    decreases |ns|
  {
    if |ns| > 0 && n.noteID > ns[0].noteID {
      InsertSorted(n, ns[1..]);
      InsertKeeps(n, ns[1..]);
      assert AtLeast(ns[1..], ns[0].noteID);
      var r := Insert(n, ns);
      assert r == [ns[0]] + Insert(n, ns[1..]);
      assert AtLeast(Insert(n, ns[1..]), ns[0].noteID);
    }
  }

  /** The sort yields ascending IDs and a rearrangement of exactly its input. */
  lemma {:induction false} SortIsSortedPermutation(ns: seq<Note>)
    ensures SortedById(SortById(ns))
    ensures multiset(SortById(ns)) == multiset(ns)
    decreases |ns|
  {
    if |ns| > 0 {
      SortIsSortedPermutation(ns[1..]);
      InsertSorted(ns[0], SortById(ns[1..]));
      InsertKeeps(ns[0], SortById(ns[1..]));
      assert ns == [ns[0]] + ns[1..];
    }
  }

  lemma {:induction false} InsertStrict(n: Note, ns: seq<Note>)
    requires StrictlyById(ns)
    requires forall k :: 0 <= k < |ns| ==> ns[k].noteID != n.noteID
    ensures StrictlyById(Insert(n, ns))
    decreases |ns|
  {
    if |ns| > 0 && n.noteID > ns[0].noteID {
      InsertStrict(n, ns[1..]);
      InsertKeeps(n, ns[1..]);
      assert AtLeast(ns[1..], ns[0].noteID + 1);
      assert AtLeast(Insert(n, ns[1..]), ns[0].noteID + 1);
      assert Insert(n, ns) == [ns[0]] + Insert(n, ns[1..]);
    }
  }

  /** With pairwise distinct IDs, the sorted order is strict. */
  lemma {:induction false} SortStrictWhenDistinct(ns: seq<Note>)
    requires DistinctIds(ns)
    ensures StrictlyById(SortById(ns))
    decreases |ns|
  {
    if |ns| > 0 {
      var rest := SortById(ns[1..]);
      SortStrictWhenDistinct(ns[1..]);
      SortIsSortedPermutation(ns[1..]);
      forall k | 0 <= k < |rest|
        ensures rest[k].noteID != ns[0].noteID
      {
        assert rest[k] in multiset(ns[1..]);
        var x :| 0 <= x < |ns[1..]| && ns[1..][x] == rest[k];
        assert ns[x + 1] == rest[k];
      }
      InsertStrict(ns[0], rest);
    }
  }

  /** Two strictly ID-ordered sequences holding the same notes are the same sequence. */
  lemma {:induction false} StrictOrderUnique(a: seq<Note>, b: seq<Note>)
    requires StrictlyById(a) && StrictlyById(b)
    requires forall x :: x in a <==> x in b
    ensures a == b
    decreases |a|
  {
    assert |a| > 0 ==> a[0] in b;
    assert |b| > 0 ==> b[0] in a;
    if |a| > 0 && |b| > 0 {
      assert a[0] == b[0] by {
        var ia :| 0 <= ia < |b| && b[ia] == a[0];
        var ib :| 0 <= ib < |a| && a[ib] == b[0];
        assert ia == 0;
      }
      forall x | x in a[1..]
        ensures x in b[1..]
      {
        var i :| 1 <= i < |a| && a[i] == x;
        assert a[0].noteID < x.noteID;
        assert x in a && x in b;
        var j :| 0 <= j < |b| && b[j] == x;
        assert j != 0;
        assert b[1..][j - 1] == x;
      }
      forall x | x in b[1..]
        ensures x in a[1..]
      {
        var i :| 1 <= i < |b| && b[i] == x;
        assert b[0].noteID < x.noteID;
        assert x in b && x in a;
        var j :| 0 <= j < |a| && a[j] == x;
        assert j != 0;
        assert a[1..][j - 1] == x;
      }
      StrictOrderUnique(a[1..], b[1..]);
      assert a == [a[0]] + a[1..] && b == [b[0]] + b[1..];
    }
  }

  /** The sort result is the only strictly ordered arrangement of notes with distinct IDs. */
  lemma SortIsTheStrictOrder(ns: seq<Note>, s: seq<Note>)
    requires DistinctIds(ns)
    requires StrictlyById(s) && multiset(s) == multiset(ns)
    ensures SortById(ns) == s
  {
    SortStrictWhenDistinct(ns);
    SortIsSortedPermutation(ns);
    var r := SortById(ns);
    assert forall x :: x in r <==> x in multiset(r);
    assert forall x :: x in s <==> x in multiset(s);
    StrictOrderUnique(r, s);
  }
}

=== FILE: results.dfy ===
/** Failure-carrying values shared by every layer of the model. */
module Results {

  /** A value that may be absent (JavaScript `undefined`, an unset request field). */
  datatype Option<+T> = None | Some(value: T)

  /** The value of an operation that either succeeds or fails with an error (Go's `(T, error)`). */
  datatype Result<+T, +E> = Ok(value: T) | Err(error: E)
}
